=== FILE: README.md ===
# pycequeau partial-cell fishnet, modelled in Dafny

This project models the physiographic core of pycequeau: the code that takes the
fishnet of control elements (CE, the square cells of the hydrological grid) and the
partial cells (CP, the parts of a control element that drain to different
neighbours) and cleans, merges, routes and renumbers them. Only the integer and
graph logic is modelled. The geometry engine and the raster reads are parameters.

The modules follow the Python file `pycequeau/physiographic/CPfishnet.py`:

- `Coordinates`: `convert_coords_to_index`, which maps a bounding box to raster
  column and row indices.
- `Adjacency`: the neighbour lists of `find_neighbors`. The geometry's "not
  disjoint" test is an abstract relation `touches` over row positions. The module
  also holds the selections the merge rules make among neighbours (largest area,
  smallest area, largest `maxFAC`).
- `BorderCleanup`: the invalidation loop of `remove_border_CPs`.
- `SmallCells`: the decision rules of `remove_smallCP`. Each rule either drops a
  flagged CP or relabels CPs to a target id.
- `ForceFour`: the `force_4CP` loop, which caps every control element at four
  partial cells. "Dissolve by id" is modelled as grouping rows under a
  representative.
- `OutletInlet`: the outlet and inlet pixel selection of `routing_table`. The
  outlet is the masked row-major argmax of the flow accumulation. The inlet is
  the argmax inside the 3x3 neighbourhood of the outlet.
- `RoutingTable`: the breadth-first renumbering of `routing_table`, starting from
  the basin outlet, with the `-99999` sentinel.
- `Routes`: `get_downstream_CP` (downstream pointers) and `outlet_routes` (the
  route of every cell to the outlet, as a zero-padded array).
- `CumulativeArea`: `cumulative_areas`, the sum of `pctSurface` over each cell's
  upstream subtree.
- `Renumber`: `renumber_fishnets`. Partial cells take their new ids from the
  routing table. Control elements are numbered in order of first appearance.
- `Common` and `Extrema` hold shared datatypes (`Option`, `Result`), strictly
  increasing sequences, and numpy's first-maximum `argmax`.

Where the code's evident intent and its behaviour differ, the model follows
the behaviour:

- **Several outlet maxima.** The code means several maxima of the masked
  accumulation to be fatal: its guard at `CPfishnet.py:679-680` calls
  `sys.exit("There is more than one outlet point")`. But `np.argmax` always
  returns one flat index, so `unravel_index` yields scalars and the guard
  never fires. The first maximum in row-major order wins.
  `OutletInlet.Outlet` models that.
- **Several basin outlets.** The comment at `CPfishnet.py:704-705` speaks of
  the one outlet cell, but `routing_table` starts its walk at the first row
  with `diff == 0` (`values[0]`, line 708). `RoutingTable.FirstOutlet` models that.
  Other rows that drain into themselves are tracked and never placed in the
  table.

## Model

| member | source | states |
|---|---|---|
| Coordinates.Ceil | pycequeau/physiographic/CPfishnet.py:26 | `ceil` of a real: the least integer not below it |
| Coordinates.Trunc | pycequeau/physiographic/CPfishnet.py:27 | `int()` of a real: truncation toward zero, on both signs |
| Coordinates.ToIndex | pycequeau/physiographic/CPfishnet.py:13-30 | columns are the western and eastern edges rounded up; `row_min` is the northern edge and `row_max` the southern edge, truncated toward zero |
| Coordinates.CeilMonotone | pycequeau/physiographic/CPfishnet.py:26-28 | rounding up preserves order |
| Coordinates.TruncMonotone | pycequeau/physiographic/CPfishnet.py:27-29 | truncation toward zero preserves order |
| Coordinates.IndexBoundsOrdered | pycequeau/physiographic/CPfishnet.py:26-29 | with positive pixel sizes, an ordered bounding box gives `col_min <= col_max` and `row_min <= row_max` |
| Extrema.FirstArgMax | pycequeau/physiographic/CPfishnet.py:677-678 | numpy `argmax`: a position of the maximum, before which every value is strictly smaller |
| Extrema.FirstArgMin | pycequeau/physiographic/CPfishnet.py:222-223 | pandas `idxmin`: a position of the minimum, before which every value is strictly larger |
| Extrema.Max | pycequeau/physiographic/CPfishnet.py:478 | `np.amax`: an element of the sequence that no element exceeds |
| Extrema.FirstArgMaxPresent | pycequeau/physiographic/CPfishnet.py:231-232 | pandas `idxmax` with missing values skipped: none exactly when every value is missing; otherwise a present value that no present value exceeds, before which every present value is strictly smaller |
| Adjacency.Neighbours | pycequeau/physiographic/CPfishnet.py:45-52 | `NEIGHBORS`: exactly the rows of the same control element that touch the row and carry a different id, in table order without repeats |
| Adjacency.WithFlag | pycequeau/physiographic/CPfishnet.py:204-207 | `itertools.compress` over `KEEP`: exactly the listed rows whose `Dissolve` flag is the one asked for |
| Adjacency.LargestArea | pycequeau/physiographic/CPfishnet.py:211-212 | `idxmax` on `Area`: a listed row that no listed row exceeds in area, and every row listed before it has a strictly smaller area, so it is the first such row |
| Adjacency.SmallestArea | pycequeau/physiographic/CPfishnet.py:222-223 | `idxmin` on `Area`: a listed row that no listed row undercuts in area, and every row listed before it has a strictly larger area, so it is the first such row |
| Adjacency.LargestAccumulation | pycequeau/physiographic/CPfishnet.py:231-232 | `idxmax` on `maxFAC`, skipping missing values: none exactly when every value is missing; otherwise a listed row with a value that no present value exceeds, and every row listed before it has a smaller value or none |
| BorderCleanup.RemoveBorder | pycequeau/physiographic/CPfishnet.py:115-150 | a visited row is zeroed exactly when it has no `maxFAC`, or is flagged and has a neighbour without one; every other row is unchanged; area and `maxFAC` are never touched |
| BorderCleanup.SurvivorNeighbours | pycequeau/physiographic/CPfishnet.py:132-150 | a neighbour of a surviving row after cleanup was its neighbour before, and is itself unchanged |
| BorderCleanup.RemoveBorderCleans | pycequeau/physiographic/CPfishnet.py:132-150 | after cleanup no visited row is invalid any more |
| BorderCleanup.RemoveBorderIdempotent | pycequeau/physiographic/CPfishnet.py:132-150 | running the cleanup twice equals running it once |
| SmallCells.Flagged | pycequeau/physiographic/CPfishnet.py:199-205 | `to_dissolve`: exactly the neighbours flagged for dissolving |
| SmallCells.Unflagged | pycequeau/physiographic/CPfishnet.py:206-207 | `not_dissolve`: exactly the neighbours not flagged |
| SmallCells.Decide | pycequeau/physiographic/CPfishnet.py:179-235 | only flagged rows with a non-zero id are considered. No neighbours: the row is dropped. Only flagged neighbours: they take the id of the first of them with the largest area. Both kinds: the flagged ones take the id of the first unflagged neighbour with the smallest area. No flagged neighbour: the row takes the id of the first neighbour with the largest `maxFAC`, or vanishes when none has one |
| SmallCells.Apply | pycequeau/physiographic/CPfishnet.py:187-235 | a decision writes the target id and clears `Dissolve` on exactly the rows it names; a drop also clears `maxFAC`; every other row is unchanged |
| SmallCells.DecisionWithin | pycequeau/physiographic/CPfishnet.py:185-235 | one decision keeps each row in its control element with its area, raises no flag, and gives it its own id, 0, or the id of a row of the same control element |
| SmallCells.Upto | pycequeau/physiographic/CPfishnet.py:173-235 | after the decisions of any prefix of the rows, every row is still in its control element with its area, has raised no flag, and has its own id, 0, or the id of a row of the same control element |
| SmallCells.RemoveSmall | pycequeau/physiographic/CPfishnet.py:173-235 | the whole pass keeps the same guarantees, and when no visited row is flagged it changes nothing |
| SmallCells.UnmentionedUnchanged | pycequeau/physiographic/CPfishnet.py:179-235 | a row that no later decision names keeps its state to the end of the pass |
| SmallCells.IsolatedFlaggedDropped | pycequeau/physiographic/CPfishnet.py:185-190 | with a symmetric touch relation, a flagged row without neighbours ends the pass with id 0 and no `maxFAC`, whatever the other rows decide |
| SmallCells.ConvergedUnchanged | pycequeau/physiographic/CPfishnet.py:181-185 | when no visited row is flagged, the pass changes nothing |
| ForceFour.RootList | pycequeau/physiographic/CPfishnet.py:489-491 | the groups of the dissolved table, ascending and without repeats |
| ForceFour.Touching | pycequeau/physiographic/CPfishnet.py:469 | exactly the other groups that touch a group, in order |
| ForceFour.MaxPresent | pycequeau/physiographic/CPfishnet.py:489 | the `max` aggregation of `maxFAC`: missing only when both are missing, otherwise the larger present value |
| ForceFour.Smallest | pycequeau/physiographic/CPfishnet.py:473-474 | the first group of least area, and that area |
| ForceFour.LargestNeighbour | pycequeau/physiographic/CPfishnet.py:476-484 | among the groups touching the smallest one, a group with a `maxFAC` that no present `maxFAC` exceeds, and every touching group of lower id has a smaller value or none, as `np.amax` and `== maxFAC` select. It is an error exactly when no touching group has a value, which is when `idx_maxFAC[0]` raises; it reports an isolated cell exactly when nothing touches |
| ForceFour.MissingNeighbourSkipped | pycequeau/physiographic/CPfishnet.py:476-484 | a touching group without `maxFAC` is skipped: of three mutually touching cells, the middle one without a value, the first joins the third |
| ForceFour.Choose | pycequeau/physiographic/CPfishnet.py:473-484 | one loop step: the first group of least area, and the first touching group with the largest present accumulation. They are distinct and touch. It is an error exactly when no group touching the smallest one has an accumulation |
| ForceFour.Merge | pycequeau/physiographic/CPfishnet.py:473-487 | every row whose group has the least area joins the target group (`idx_small` selects every row equal to the minimum); every other row stays in its group |
| ForceFour.MergeShrinks | pycequeau/physiographic/CPfishnet.py:484-491 | a merge leaves a valid grouping with strictly fewer groups, only coarsens, and puts the smallest group into the target |
| ForceFour.Cap | pycequeau/physiographic/CPfishnet.py:467-491 | the `while` loop ends with at most four groups, coarser than the input, and returns an input with four or fewer groups unchanged. It fails only by getting stuck: it reaches a grouping coarser than the input, still with more than four groups, at which the next merge's selection fails with that same fault |
| ForceFour.Labels | pycequeau/physiographic/CPfishnet.py:484-487 | every row carries its group representative's id |
| ForceFour.FewLabels | pycequeau/physiographic/CPfishnet.py:489-491 | there are no more distinct ids than groups |
| ForceFour.ForceFourCE | pycequeau/physiographic/CPfishnet.py:457-491 | per control element: at most four distinct ids remain, each one an input id, and a control element with at most four cells keeps its ids. It fails only where the loop gets stuck on a grouping of more than four groups whose selection fails |
| ForceFour.RelabelAsWritten | pycequeau/physiographic/CPfishnet.py:482-484 | the relabelling as written changes only the rows whose own position is a representative |
| ForceFour.CapAsWritten | pycequeau/physiographic/CPfishnet.py:467-491 | the loop as written fails exactly when the corrected loop fails, returns its input when there are at most four groups, and writes only ids it started with or cell ids |
| ForceFour.ForceFourCEAsWritten | pycequeau/physiographic/CPfishnet.py:457-491 | per control element as written: fails exactly when the corrected cap fails, leaves only input ids, and keeps the ids of a control element with at most four cells |
| ForceFour.AsWrittenSplitsGroup | pycequeau/physiographic/CPfishnet.py:482-487 | as written, a row absorbed earlier keeps the old id while its group's representative takes the new one |
| OutletInlet.ClampNegative | pycequeau/physiographic/CPfishnet.py:622 | negative accumulations become 0 and the others are kept |
| OutletInlet.GridArgMax | pycequeau/physiographic/CPfishnet.py:677-678 | `unravel_index(argmax)`: a pixel holding the maximum, before which, in row-major order, every pixel is strictly smaller |
| OutletInlet.Masked | pycequeau/physiographic/CPfishnet.py:673-678 | `subFAC*mask_CP`: the accumulation on the cell's own pixels, 0 elsewhere |
| OutletInlet.Windowed | pycequeau/physiographic/CPfishnet.py:683-690 | `subFAC*mask_FAC`: the accumulation inside the window, 0 outside |
| OutletInlet.SliceBound | pycequeau/physiographic/CPfishnet.py:684-685 | numpy's reading of a slice bound: negative bounds count from the end, and every bound is clipped to the axis |
| OutletInlet.Neighbourhood | pycequeau/physiographic/CPfishnet.py:683-685 | the clipped 3x3 window holds exactly the pixels within one step of the outlet, the outlet included |
| OutletInlet.WindowAsWritten | pycequeau/physiographic/CPfishnet.py:683-685 | the window the slices as written select: the clipped neighbourhood when the outlet is off the first row and column, and no pixel at all when the outlet is on the first row or column of a window at least three wide |
| OutletInlet.Outlet | pycequeau/physiographic/CPfishnet.py:673-678 | the first row-major maximum of the masked accumulation; for a cell that carries flow, it lies on the cell at the cell's largest accumulation |
| OutletInlet.Inlet | pycequeau/physiographic/CPfishnet.py:682-690 | the first row-major maximum of the accumulation around the outlet: no pixel around the outlet holds more, every one before it holds less, and it holds no less than the outlet. It is next to the outlet whenever some pixel around the outlet carries flow, and pixel (0, 0) when none does |
| OutletInlet.InletNextToOutlet | pycequeau/physiographic/CPfishnet.py:668-690 | the inlet of a cell's outlet is always next to it: an outlet without flow means the masked accumulation is all zero, so the outlet is pixel (0, 0), and so is the inlet unless flow lies around it |
| OutletInlet.Locate | pycequeau/physiographic/CPfishnet.py:668-692 | the error case is the empty window. Otherwise the outlet is as above. The inlet is the first maximum around the outlet and always next to it; it is pixel (0, 0) when nothing around the outlet carries flow. `inCPid` is the cell under the inlet, and `inCPid == CPid` when the inlet is the outlet of a cell that carries flow |
| OutletInlet.LocateAsWritten | pycequeau/physiographic/CPfishnet.py:682-692 | as written: the same outlet; the inlet is the first row-major maximum of the accumulation inside the window as written, pixel (0, 0) when that window carries no flow; `inCPid` is the cell under it |
| OutletInlet.AsWrittenAgreesOffEdge | pycequeau/physiographic/CPfishnet.py:682-692 | when the outlet is off the window's first row and first column, the as-written reading and the clipped one give the same outlet, inlet and `inCPid` |
| OutletInlet.AsWrittenTopRowInlet | pycequeau/physiographic/CPfishnet.py:684-690 | as written, an outlet on the window's first row, with three or more rows, gets an empty window, so the inlet is pixel (0, 0) |
| OutletInlet.TopRowCounterexample | pycequeau/physiographic/CPfishnet.py:684-692 | a concrete cell `7` that, as written, appears to drain into itself |
| OutletInlet.TopRowCorrected | pycequeau/physiographic/CPfishnet.py:682-692 | the same cell, with the clipped window, drains into cell `8` |
| RoutingTable.Matches | pycequeau/physiographic/CPfishnet.py:716-717 | `routing.index[routing["inCPid"] == v]`: exactly the rows equal to `v`, in table order |
| RoutingTable.FirstOutlet | pycequeau/physiographic/CPfishnet.py:703-708 | the first row with `diff == 0`; none exactly when no row drains into itself |
| RoutingTable.Start | pycequeau/physiographic/CPfishnet.py:706-713 | the outlet gets new id 1, and every row that drains into itself is set to the sentinel |
| RoutingTable.Step | pycequeau/physiographic/CPfishnet.py:714-735 | expanding row `i`: the untracked rows draining into it get the next consecutive ids and are appended; they are recorded as its upstream cells and tracked; nothing else changes |
| RoutingTable.BuildRoutingTable | pycequeau/physiographic/CPfishnet.py:703-735 | an error exactly when no cell drains into itself. Otherwise the outlet has new id 1 and the ids are 1..m. Every row is a distinct input cell. Upstream ids are larger than the row's own id, and each cell drains into its row. The cells draining into one row are listed in routing-row order, as `routing.index[...]` gives them. Every row but the first has a parent. Every cell draining into a row is in the table |
| RoutingTable.TableInletsNonZero | pycequeau/physiographic/CPfishnet.py:742-750 | every row of a finished table is a cell whose inlet lies on a cell |
| RoutingTable.ZeroInletNotInTable | pycequeau/physiographic/CPfishnet.py:746-750 | a cell dropped for `inCPid == 0` is never a row of the table |
| Routes.FindParent | pycequeau/physiographic/CPfishnet.py:781-787 | the first row listing the id upstream; none exactly when no row lists it |
| Routes.Pointer | pycequeau/physiographic/CPfishnet.py:779-787 | `downstreamCPs`: 0 exactly when no row lists the id; otherwise the new id of the first row that lists it |
| Routes.Downstream | pycequeau/physiographic/CPfishnet.py:762-790 | an error exactly when every upstream list is empty (`max` of an empty list); otherwise one pointer per row |
| Routes.ParentUnique | pycequeau/physiographic/CPfishnet.py:781-787 | in a breadth-first table no id is upstream of two rows, so `idx_down[0]` is the only match |
| Routes.PointerNames | pycequeau/physiographic/CPfishnet.py:781-787 | the pointer of an upstream id names the row that lists it |
| Routes.DownstreamInvertsUpstream | pycequeau/physiographic/CPfishnet.py:779-787 | a row is upstream of row `p` exactly when its pointer is `p + 1`: the pointers invert the upstream lists |
| Routes.DownstreamPointsDown | pycequeau/physiographic/CPfishnet.py:779-787 | the outlet points to 0 and every other row to a smaller, existing id |
| Routes.Route | pycequeau/physiographic/CPfishnet.py:800-812 | the route of a cell starts with its own id, ends with 1, stays within `1..id`, and holds at most `id` cells |
| Routes.RouteFollows | pycequeau/physiographic/CPfishnet.py:806-811 | each element of a route before the outlet is followed by its downstream pointer |
| Routes.RouteDecreasing | pycequeau/physiographic/CPfishnet.py:800-812 | a route is strictly decreasing |
| Routes.RouteUnique | pycequeau/physiographic/CPfishnet.py:800-812 | any sequence that starts at the cell, follows the pointers and ends at 1 is the route |
| Routes.RouteSuffix | pycequeau/physiographic/CPfishnet.py:800-812 | the tail of a route from any element is that element's own route |
| Routes.Pad | pycequeau/physiographic/CPfishnet.py:818-823 | a row of the zero array, with the route written at its start |
| Routes.Depths | pycequeau/physiographic/CPfishnet.py:815-816 | `lists_len`: the length of each cell's route, between 1 and the cell's id |
| Routes.Width | pycequeau/physiographic/CPfishnet.py:815-818 | `max(lists_len)`: the longest route length |
| Routes.RouteRow | pycequeau/physiographic/CPfishnet.py:818-823 | a row of the routes array: it starts with the cell's id, holds non-zero entries up to the route's length with 1 last, and zeros after it |
| Routes.OutletRoutes | pycequeau/physiographic/CPfishnet.py:793-824 | one padded row per cell, all of the longest route's width |
| Routes.RoutesRow | pycequeau/physiographic/CPfishnet.py:815-823 | the non-zero entries of a padded row are exactly the cell's route |
| Routes.OutletRoutesOf | pycequeau/physiographic/CPfishnet.py:793-824 | the padded array represents every route |
| CumulativeArea.Upstream | pycequeau/physiographic/CPfishnet.py:843-852 | `np.unique` of the kept ids: increasing, and exactly the ids not below `i` that share a route row with `i` |
| CumulativeArea.Contributors | pycequeau/physiographic/CPfishnet.py:845-852 | the contributor list of cell `i`, with ids in `1..m` |
| CumulativeArea.PctSurface | pycequeau/physiographic/CPfishnet.py:834 | `pctSurface` times the CE area is 100 times the cell area; non-negative for non-negative areas |
| CumulativeArea.CumulativeAreas | pycequeau/physiographic/CPfishnet.py:836-856 | for every cell `i` in `1..m`: the upstream list holds exactly its contributors, and `cumulPctSurf` is the sum of their `pctSurface`; entry 0 is empty |
| CumulativeArea.CumulativeAreasAsWritten | pycequeau/physiographic/CPfishnet.py:838-856 | as written, cell `m` keeps 0.0, and all other cells agree with the corrected loop |
| CumulativeArea.RoutesBounded | pycequeau/physiographic/CPfishnet.py:852-853 | every id in the routes array is a cell, so the `loc` lookups succeed |
| CumulativeArea.SubtreeIff | pycequeau/physiographic/CPfishnet.py:843-852 | `x` contributes to `i` exactly when the route of `x` passes through `i`: the contributors are the subtree of `i` |
| CumulativeArea.OwnContribution | pycequeau/physiographic/CPfishnet.py:843-852 | every cell is among its own contributors |
| CumulativeArea.LastIsLeaf | pycequeau/physiographic/CPfishnet.py:843-852 | the cell with the largest id contributes only to itself |
| CumulativeArea.SubtreeNested | pycequeau/physiographic/CPfishnet.py:843-852 | a cell's contributors also contribute to its downstream cell |
| CumulativeArea.OutletTotal | pycequeau/physiographic/CPfishnet.py:853-856 | the outlet collects the whole basin: its `cumulPctSurf` is the total `pctSurface` |
| CumulativeArea.DownstreamCollectsMore | pycequeau/physiographic/CPfishnet.py:853-856 | with non-negative percentages, a cell's `cumulPctSurf` never exceeds its downstream cell's |
| CumulativeArea.LastCollectsItself | pycequeau/physiographic/CPfishnet.py:838-856 | the corrected loop gives cell `m` its own `pctSurface` |
| CumulativeArea.AsWrittenLosesLast | pycequeau/physiographic/CPfishnet.py:838 | as written, cell `m` reports a different value whenever its own `pctSurface` is non-zero |
| Renumber.Lookup | pycequeau/physiographic/CPfishnet.py:873-877 | a non-zero new id is that of a table row carrying the cell's old id |
| Renumber.NewCpIds | pycequeau/physiographic/CPfishnet.py:873-877 | an error exactly when the table has fewer rows than there are cells (`iloc` out of range); otherwise one new id per cell, each taken from a matching row |
| Renumber.NewCpNames | pycequeau/physiographic/CPfishnet.py:873-877 | with a walk's table, a new id names the row holding the cell's old id, and it is 0 exactly when no consulted row holds it |
| Renumber.NewCpInjective | pycequeau/physiographic/CPfishnet.py:873-877 | two cells with the same non-zero new id have the same old id |
| Renumber.NewCpOnto | pycequeau/physiographic/CPfishnet.py:873-877 | when every table row is a cell, every new id `1..m` is given to some cell |
| Renumber.Stamp | pycequeau/physiographic/CPfishnet.py:861-877 | each cell keeps its old CP and CE ids, takes its new CP id, and has `newCEid` still 0 |
| Renumber.InsertBy | pycequeau/physiographic/CPfishnet.py:881 | inserting into a sorted sequence keeps it sorted and adds exactly the new element |
| Renumber.SortBy | pycequeau/physiographic/CPfishnet.py:881 | `sort_values`: sorted by the key, and a permutation of the input |
| Renumber.FirstIndex | pycequeau/physiographic/CPfishnet.py:887-890 | the first position of a value |
| Renumber.FirstAppearance | pycequeau/physiographic/CPfishnet.py:884-890 | `CE_track_list`: the values without repeats, exactly those of the input, ordered by first appearance |
| Renumber.NewCe | pycequeau/physiographic/CPfishnet.py:892-897 | the position plus one of a control element in the track list, 0 exactly when it is not tracked |
| Renumber.NumberCes | pycequeau/physiographic/CPfishnet.py:884-898 | only `newCEid` changes. The ids are exactly `1..k`. Two cells share an id exactly when they share a control element. Ids follow the order of first appearance |
| Renumber.NumberCesNumbers | pycequeau/physiographic/CPfishnet.py:884-898 | the numbering promises hold of the numbered cells read on their own |
| Renumber.Kept | pycequeau/physiographic/CPfishnet.py:891-906 | exactly the listed control elements that some cell mentions, each with its new CE id |
| Renumber.RenumberFishnets | pycequeau/physiographic/CPfishnet.py:859-907 | an error exactly when the table is too short; otherwise every cell is kept, cells are sorted by new CP id and control elements by new CE id |
| Renumber.NumberCesKeepsCells | pycequeau/physiographic/CPfishnet.py:884-898 | numbering the control elements changes nothing else and keeps the sort order |
| Renumber.RenumberedCells | pycequeau/physiographic/CPfishnet.py:873-881 | the output cells are a permutation of the input cells stamped with their new CP ids |
| Renumber.RenumberedCes | pycequeau/physiographic/CPfishnet.py:884-898 | the output cells carry CE ids `1..k`, one per control element they mention. Two cells share an id exactly when they share a control element, and ids follow the order in which the sorted cells first mention their control elements |
| Renumber.KeptCes | pycequeau/physiographic/CPfishnet.py:899-906 | a control element stays exactly when some cell carries it, with the same new id; those with id 0 are dropped |

## Left out

- Raster and vector I/O is not modelled: GDAL datasets, geotransforms, `ReadAsArray`, and `rasterstats.zonal_stats`. Origin and pixel size, the accumulation and CP windows, and `maxFAC` (an optional integer per cell) are parameters.
- The geometry engine is not modelled: `disjoint`, `area`, `bounds`, `explode` and `dissolve`. Adjacency is the abstract relation `touches`, and areas are given naturals. Dissolving by id is grouping by label.
- `identify_small_CPs` and `mean_altitudes` are not modelled: they are table filtering and raster sampling.
- `dissolve_pixels` is not modelled: its control flow depends on the geometry engine's multipolygon test and on random scratch ids.
- The duplicate-geometry collapse after `force_4CP` is not modelled: it compares stringified shapes.
- The one-column border correction of `routing_table` is not modelled: it depends on the CE raster. The CP and accumulation windows are taken as already cut.
- The `sys.exit` check for several outlets is not modelled: `argmax` returns one index, so it never fires.
- Floating point: areas and percentages are exact `real`s, so rounding is not modelled.
- The `uint16` casts in `get_downstream_CP` and `cumulative_areas` are not modelled: ids are unbounded naturals, so wrap-around above 65535 cells is not represented.
- pandas label-versus-position quirks are modelled positionally: the routing table's rows are its positions and `rtable.loc[[0]]` is its first row. The final drop of empty `rtable` rows leaves the positional table unchanged.
- The stable sort: `sort_values` uses an unstable quicksort by default, while `SortBy` is a stable insertion sort. The contracts state only order and permutation, which hold for both.
- The row-position ordering of `remove_smallCP`: the source visits rows per control element, the model in table order. Writes never leave a control element, so the result is the same.
- Renumber.Lookup: states that a non-zero result is some matching row's new id. It does not say the last matching row wins; `NewCpNames` gives the exact result for tables whose old ids are distinct.
- ForceFour.CapAsWritten: states when it fails and which ids it may write, not the exact ids; its divergence from the corrected loop is stated by `AsWrittenSplitsGroup`.
- ForceFour.ForceFourCEAsWritten: states when it fails and which ids it may leave, not the exact ids, for the same reason.
- ForceFour.ForceFourCE: takes the cells of a control element as one row per id in ascending id order, as the dissolve before `force_4CP` leaves them. The source also sees the several rows with one id that `explode` makes of a multi-part cell, and rows that `explode` leaves out of id order. The model does not follow the source there: its tie-breaks go by row position, the source's by id, and it treats the parts of one id as separate groups, where the source's first dissolve merges them.
- RoutingTable.ZeroInletNotInTable: stated for one table row at a time, rather than as a single quantified statement.
- The `maxFAC` of a drop in `remove_smallCP` when no neighbour has an accumulation: pandas yields a NaN label and the row vanishes at the next dissolve. The model records this as a drop.

## Findings

| source | as written | input that shows it | evidently intended | confidence | as-written member | corrected member |
|---|---|---|---|---|---|---|
| pycequeau/physiographic/CPfishnet.py:482-484 | `CP_fishnet.loc[idx_replaced, "CPid"]` relabels only the row whose index equals the least-area group's id | a control element of six cells where the least-area group has already absorbed a cell in an earlier round; the absorbed cell keeps the old id | every cell of the least-area group takes the target id, so at most four ids remain | not executed | ForceFour.AsWrittenSplitsGroup | ForceFour.ForceFourCE |
| pycequeau/physiographic/CPfishnet.py:684-685 | the slice `outlet_row - 1:outlet_row + 2` with `outlet_row == 0` starts at -1, which numpy reads as the last row, so the window is empty | cell `7` at pixel (0, 0) of a 3x3 window with accumulation 5 at (0, 1) in cell `8`; the inlet falls on (0, 0), so cell `7` drains into itself | the window clipped at the raster edge, with the inlet at (0, 1) in cell `8` | not executed | OutletInlet.TopRowCounterexample | OutletInlet.TopRowCorrected |
| pycequeau/physiographic/CPfishnet.py:838 | `for i in range(len(outlet_routes))` visits ids `0..m-1`, so cell `m` is never summed and keeps `cumulPctSurf == 0.0` | a basin with a single cell: its outlet reports 0.0 instead of its own `pctSurface` | the loop runs over ids `1..m` | not executed | CumulativeArea.AsWrittenLosesLast | CumulativeArea.LastCollectsItself |

=== FILE: adjacency.dfy ===
/** Partial cells of the feature table and the neighbour lists that
    `find_neighbors` derives from them. The geometry engine's "not disjoint"
    test is an abstract relation `touches` over stable row positions. */
module Adjacency {
  import opened Common
  import Extrema

  /** One row of the partial-cell table: `CPid`, `CEid`, `Area`, the
      `Dissolve` flag and the `maxFAC` zonal statistic. */
  datatype Cell = Cell(id: int, ce: int, area: nat, dissolve: bool, maxFac: Option<int>)

  /** Row `j` is a neighbour of row `k`: same control element (the passes
      run per control element), geometries not disjoint, and a different
      identifier (a row never lists its own id). */
  predicate IsNeighbour(cells: seq<Cell>, touches: (nat, nat) -> bool, k: nat, j: nat)
    requires k < |cells| && j < |cells|
  {
    cells[j].ce == cells[k].ce && touches(k, j) && cells[j].id != cells[k].id
  }

  /** Every entry of `ps` is a row of a table with `n` rows. */
  predicate Rows(ps: seq<nat>, n: nat) {
    forall t :: 0 <= t < |ps| ==> ps[t] < n
  }

  /** The neighbours of row `k` among rows `from..`, in table order. */
  function NeighboursFrom(cells: seq<Cell>, touches: (nat, nat) -> bool, k: nat, from: nat): (r: seq<nat>)
    requires k < |cells| && from <= |cells|
    ensures forall j: nat :: j in r <==> from <= j < |cells| && IsNeighbour(cells, touches, k, j)
    ensures Increasing(r) && Rows(r, |cells|)
    decreases |cells| - from
  {
    if from == |cells| then []
    else
      var rest := NeighboursFrom(cells, touches, k, from + 1);
      if IsNeighbour(cells, touches, k, from) then
        PrependIncreasing(from, rest);
        [from] + rest
      else rest
  }

  /** The `NEIGHBORS` list of row `k` as row positions, in table order; the
      parallel `KEEP` list is each neighbour's `dissolve` flag. */
  function Neighbours(cells: seq<Cell>, touches: (nat, nat) -> bool, k: nat): (r: seq<nat>)
    requires k < |cells|
    ensures forall j: nat :: j in r <==> j < |cells| && IsNeighbour(cells, touches, k, j)
    ensures Increasing(r) && Rows(r, |cells|)
  {
    NeighboursFrom(cells, touches, k, 0)
  }

  /** The rows of `ps` whose dissolve flag equals `flag`, order kept
      (`itertools.compress` over `KEEP` or its negation). */
  function WithFlag(cells: seq<Cell>, ps: seq<nat>, flag: bool): (r: seq<nat>)
    requires Rows(ps, |cells|)
    ensures Rows(r, |cells|)
    ensures forall j :: j in r <==> j in ps && cells[j].dissolve == flag
    ensures Increasing(ps) ==> Increasing(r)
  {
    if ps == [] then []
    else
      var rest := WithFlag(cells, ps[1..], flag);
      assert forall j :: j in ps[1..] ==> j in ps;
      if cells[ps[0]].dissolve == flag then
        if Increasing(ps) then
          assert forall j :: j in ps[1..] ==> ps[0] < j;
          PrependIncreasing(ps[0], rest);
          [ps[0]] + rest
        else [ps[0]] + rest
      else rest
  }

  function Areas(cells: seq<Cell>, ps: seq<nat>): (r: seq<int>)
    requires Rows(ps, |cells|)
    ensures |r| == |ps| && forall t :: 0 <= t < |ps| ==> r[t] == cells[ps[t]].area
  {
    seq(|ps|, t requires 0 <= t < |ps| => cells[ps[t]].area)
  }

  /** Entry `t` of `ps` is where pandas `idxmax` lands on the areas: no
      entry has a larger area and every earlier entry a smaller one. */
  predicate FirstLargestArea(cells: seq<Cell>, ps: seq<nat>, t: nat)
    requires Rows(ps, |cells|)
  {
    && t < |ps|
    && (forall u :: 0 <= u < |ps| ==> cells[ps[u]].area <= cells[ps[t]].area)
    && (forall u :: 0 <= u < t ==> cells[ps[u]].area < cells[ps[t]].area)
  }

  /** Entry `t` of `ps` is where pandas `idxmin` lands on the areas. */
  predicate FirstSmallestArea(cells: seq<Cell>, ps: seq<nat>, t: nat)
    requires Rows(ps, |cells|)
  {
    && t < |ps|
    && (forall u :: 0 <= u < |ps| ==> cells[ps[t]].area <= cells[ps[u]].area)
    && (forall u :: 0 <= u < t ==> cells[ps[t]].area < cells[ps[u]].area)
  }

  /** Entry `t` of `ps` is where pandas `idxmax` lands on `maxFAC`: it has
      a value, no entry has a larger one and every earlier entry has a
      smaller one or none. */
  predicate FirstLargestAccumulation(cells: seq<Cell>, ps: seq<nat>, t: nat)
    requires Rows(ps, |cells|)
  {
    && t < |ps| && cells[ps[t]].maxFac.Some?
    && (forall u :: 0 <= u < |ps| && cells[ps[u]].maxFac.Some? ==>
          cells[ps[u]].maxFac.value <= cells[ps[t]].maxFac.value)
    && (forall u :: 0 <= u < t && cells[ps[u]].maxFac.Some? ==>
          cells[ps[u]].maxFac.value < cells[ps[t]].maxFac.value)
  }

  /** pandas `idxmax` on the areas of `ps`: the first row of largest area. */
  function LargestArea(cells: seq<Cell>, ps: seq<nat>): (j: nat)
    requires |ps| > 0 && Rows(ps, |cells|)
    ensures j in ps
    ensures forall q :: q in ps ==> cells[q].area <= cells[j].area
    ensures exists t: nat :: FirstLargestArea(cells, ps, t) && ps[t] == j
  {
    var t := Extrema.FirstArgMax(Areas(cells, ps));
    assert forall q :: q in ps ==> exists u :: 0 <= u < |ps| && ps[u] == q;
    assert FirstLargestArea(cells, ps, t);
    ps[t]
  }

  /** pandas `idxmin` on the areas of `ps`: the first row of smallest area. */
  function SmallestArea(cells: seq<Cell>, ps: seq<nat>): (j: nat)
    requires |ps| > 0 && Rows(ps, |cells|)
    ensures j in ps
    ensures forall q :: q in ps ==> cells[j].area <= cells[q].area
    ensures exists t: nat :: FirstSmallestArea(cells, ps, t) && ps[t] == j
  {
    var t := Extrema.FirstArgMin(Areas(cells, ps));
    assert forall q :: q in ps ==> exists u :: 0 <= u < |ps| && ps[u] == q;
    assert FirstSmallestArea(cells, ps, t);
    ps[t]
  }

  /** The `maxFAC` values of the rows of `ps`, in the order of `ps`. */
  function Accumulations(cells: seq<Cell>, ps: seq<nat>): (r: seq<Option<int>>)
    requires Rows(ps, |cells|)
    ensures |r| == |ps| && forall t :: 0 <= t < |ps| ==> r[t] == cells[ps[t]].maxFac
  {
    seq(|ps|, t requires 0 <= t < |ps| => cells[ps[t]].maxFac)
  }

  /** pandas `idxmax` on `maxFAC` over `ps`: missing values are skipped and
      the first row of largest accumulation wins; `None` when no row of `ps`
      has a value. */
  function LargestAccumulation(cells: seq<Cell>, ps: seq<nat>): (r: Option<nat>)
    requires Rows(ps, |cells|)
    ensures r.None? <==> forall q :: q in ps ==> cells[q].maxFac.None?
    ensures r.Some? ==> r.value in ps && cells[r.value].maxFac.Some?
    ensures r.Some? ==> forall q :: q in ps && cells[q].maxFac.Some? ==>
                          cells[q].maxFac.value <= cells[r.value].maxFac.value
    ensures r.Some? ==> exists t: nat :: FirstLargestAccumulation(cells, ps, t) && ps[t] == r.value
  {
    var facs := Accumulations(cells, ps);
    assert forall q :: q in ps ==> exists u :: 0 <= u < |ps| && ps[u] == q;
    match Extrema.FirstArgMaxPresent(facs)
    case None => None
    case Some(t) =>
      assert FirstLargestAccumulation(cells, ps, t);
      Some(ps[t])
  }
}

=== FILE: border.dfy ===
/** Border cleanup (`remove_border_CPs`): partial cells the flow raster
    does not cover are invalidated before any merging. */
module BorderCleanup {
  import opened Common
  import opened Adjacency

  /** Row `k` is invalid when it has no flow accumulation, or when it is
      flagged for dissolving and one of its neighbours has none. (The
      source's second test, missing accumulation with an area of at most
      400, is a special case of the first.) */
  predicate Invalid(cells: seq<Cell>, touches: (nat, nat) -> bool, k: nat)
    requires k < |cells|
  {
    || cells[k].maxFac.None?
    || (cells[k].dissolve && exists j :: j in Neighbours(cells, touches, k) && cells[j].maxFac.None?)
  }

  /** An invalidated row: id, dissolve flag and control element all zeroed. */
  function Zeroed(c: Cell): Cell {
    c.(id := 0, dissolve := false, ce := 0)
  }

  /** Every row of a listed control element is judged on the input table;
      rows of unlisted control elements are never visited. */
  function RemoveBorder(cells: seq<Cell>, touches: (nat, nat) -> bool, ces: set<int>): (r: seq<Cell>)
    ensures |r| == |cells|
    ensures forall k :: 0 <= k < |cells| && cells[k].ce in ces && Invalid(cells, touches, k) ==>
              r[k].id == 0 && r[k].ce == 0 && !r[k].dissolve
    ensures forall k :: 0 <= k < |cells| && !(cells[k].ce in ces && Invalid(cells, touches, k)) ==>
              r[k] == cells[k]
    ensures forall k :: 0 <= k < |cells| ==> r[k].area == cells[k].area && r[k].maxFac == cells[k].maxFac
  {
    seq(|cells|, k requires 0 <= k < |cells| =>
      if cells[k].ce in ces && Invalid(cells, touches, k) then Zeroed(cells[k]) else cells[k])
  }

  /** After cleanup every row left in a listed control element has a flow
      accumulation, and so has every neighbour of a flagged one. */
  predicate Clean(cells: seq<Cell>, touches: (nat, nat) -> bool, ces: set<int>) {
    forall k :: 0 <= k < |cells| && cells[k].ce in ces ==> !Invalid(cells, touches, k)
  }

  /** Neighbours of a surviving row after cleanup were neighbours before. */
  lemma {:induction false} SurvivorNeighbours(cells: seq<Cell>, touches: (nat, nat) -> bool, ces: set<int>, k: nat, j: nat)
    requires 0 !in ces
    requires k < |cells| && j < |cells|
    requires cells[k].ce in ces && !Invalid(cells, touches, k)
    requires j in Neighbours(RemoveBorder(cells, touches, ces), touches, k)
    ensures j in Neighbours(cells, touches, k)
    ensures RemoveBorder(cells, touches, ces)[j] == cells[j]
  {
    var r := RemoveBorder(cells, touches, ces);
    assert r[k] == cells[k];
    assert r[j].ce == r[k].ce;
  }

  /** Cleanup leaves a clean table, provided no control element has id 0
      (invalidated rows are parked under control element 0). */
  lemma {:induction false} RemoveBorderCleans(cells: seq<Cell>, touches: (nat, nat) -> bool, ces: set<int>)
    requires 0 !in ces
    ensures Clean(RemoveBorder(cells, touches, ces), touches, ces)
  {
    var r := RemoveBorder(cells, touches, ces);
    forall k | 0 <= k < |r| && r[k].ce in ces
      ensures !Invalid(r, touches, k)
    {
      assert r[k] == cells[k];
      assert !Invalid(cells, touches, k);
      forall j | j in Neighbours(r, touches, k)
        ensures r[j].maxFac.Some?
      {
        SurvivorNeighbours(cells, touches, ces, k, j);
      }
    }
  }

  /** A clean table is a fixed point: running the cleanup twice changes
      nothing more than running it once. */
  lemma {:induction false} RemoveBorderIdempotent(cells: seq<Cell>, touches: (nat, nat) -> bool, ces: set<int>)
    requires 0 !in ces
    ensures RemoveBorder(RemoveBorder(cells, touches, ces), touches, ces) == RemoveBorder(cells, touches, ces)
  {
    var r := RemoveBorder(cells, touches, ces);
    RemoveBorderCleans(cells, touches, ces);
    var r2 := RemoveBorder(r, touches, ces);
    assert forall k :: 0 <= k < |r| ==> r2[k] == r[k];
  }
}

=== FILE: common.dfy ===
/** Shared result types for the partial-cell pipeline. */
module Common {

  /** A value that may be missing: a maximum flow accumulation that the raster
      sampler could not compute, or a label pandas left as NaN. */
  datatype Option<+T> = None | Some(value: T)

  /** The ways the pipeline stops instead of producing a table. */
  datatype Fault =
    | IsolatedCell          // the smallest cell of a control element has no neighbour
    | MissingAccumulation   // no neighbour has a flow-accumulation value
    | EmptyWindow           // a raster window with no pixel
    | NoBasinOutlet         // no partial cell drains into itself
    | TableTooShort         // the routing table has fewer rows than the cell table
    | NoUpstreamCells       // no row of the routing table has an upstream cell

  datatype Result<+T> = Ok(value: T) | Err(fault: Fault)

  /** Strictly increasing: row positions in table order, without repeats. */
  predicate Increasing(s: seq<nat>) {
    forall a, b :: 0 <= a < b < |s| ==> s[a] < s[b]
  }

  lemma PrependIncreasing(x: nat, s: seq<nat>)
    requires Increasing(s)
    requires forall j :: j in s ==> x < j
    ensures Increasing([x] + s)
  {
    forall a, b | 0 <= a < b < |[x] + s|
      ensures ([x] + s)[a] < ([x] + s)[b]
    {
      assert ([x] + s)[b] == s[b - 1];
      assert s[b - 1] in s;
      if a > 0 {
        assert ([x] + s)[a] == s[a - 1];
      }
    }
  }

  /** A strictly increasing run spans at least its length minus one. */
  lemma {:induction false} IncreasingSpan(s: seq<nat>)
    requires Increasing(s) && |s| >= 1
    ensures s[|s| - 1] - s[0] >= |s| - 1
  {
    if |s| >= 2 {
      IncreasingSpan(s[..|s| - 1]);
      assert s[|s| - 2] < s[|s| - 1];
    }
  }
}

=== FILE: coords.dfy ===
/** Bounding box to raster index range (`convert_coords_to_index`). */
module Coordinates {

  /** Python's `math.ceil` on a float. */
  function Ceil(x: real): (r: int)
    ensures r as real - 1.0 < x <= r as real
  {
    -((-x).Floor)
  }

  /** Python's `int(...)` on a float: truncation toward zero. */
  function Trunc(x: real): (r: int)
    ensures 0.0 <= x ==> 0 <= r && r as real <= x < r as real + 1.0
    ensures x < 0.0 ==> r <= 0 && r as real - 1.0 < x <= r as real
  {
    if x >= 0.0 then x.Floor else -((-x).Floor)
  }

  /** A feature's bounding box in map coordinates. */
  datatype Box = Box(minx: real, miny: real, maxx: real, maxy: real)

  /** The part of a raster geotransform the mapping uses; `pixelHeight` is
      the negated sixth coefficient, positive for north-up rasters. */
  datatype Raster = Raster(originX: real, originY: real, pixelWidth: real, pixelHeight: real)

  /** Column and row ranges; rows grow downwards from the raster origin. */
  datatype IndexRange = IndexRange(colMin: int, rowMin: int, colMax: int, rowMax: int)

  /** `n` is `x` rounded up to an integer. */
  predicate RoundsUpTo(x: real, n: int) {
    n as real - 1.0 < x <= n as real
  }

  /** `n` is `x` rounded toward zero to an integer. */
  predicate TruncatesTo(x: real, n: int) {
    if x >= 0.0 then 0 <= n && n as real <= x < n as real + 1.0
    else n <= 0 && n as real - 1.0 < x <= n as real
  }

  /** Columns are rounded up from the western and eastern edges; rows are
      truncated toward zero from the northern (`rowMin`) and southern
      (`rowMax`) edges. Division by a zero pixel size raises in the source. */
  function ToIndex(b: Box, g: Raster): (r: IndexRange)
    requires g.pixelWidth != 0.0 && g.pixelHeight != 0.0
    ensures RoundsUpTo((b.minx - g.originX) / g.pixelWidth, r.colMin)
    ensures RoundsUpTo((b.maxx - g.originX) / g.pixelWidth, r.colMax)
    ensures TruncatesTo((g.originY - b.maxy) / g.pixelHeight, r.rowMin)
    ensures TruncatesTo((g.originY - b.miny) / g.pixelHeight, r.rowMax)
  {
    IndexRange(
      Ceil((b.minx - g.originX) / g.pixelWidth),
      Trunc((g.originY - b.maxy) / g.pixelHeight),
      Ceil((b.maxx - g.originX) / g.pixelWidth),
      Trunc((g.originY - b.miny) / g.pixelHeight))
  }

  lemma CeilMonotone(x: real, y: real)
    requires x <= y
    ensures Ceil(x) <= Ceil(y)
  {
  }

  lemma TruncMonotone(x: real, y: real)
    requires x <= y
    ensures Trunc(x) <= Trunc(y)
  {
  }

  lemma DivideMonotone(a: real, b: real, w: real)
    requires a <= b && w > 0.0
    ensures a / w <= b / w
  {
    assert b / w - a / w == (b - a) / w;
  }

  /** With positive pixel sizes an ordered box gives ordered index ranges:
      the row range is read from the box upside down, yet stays ordered. */
  lemma IndexBoundsOrdered(b: Box, g: Raster)
    requires g.pixelWidth > 0.0 && g.pixelHeight > 0.0
    requires b.minx <= b.maxx && b.miny <= b.maxy
    ensures ToIndex(b, g).colMin <= ToIndex(b, g).colMax
    ensures ToIndex(b, g).rowMin <= ToIndex(b, g).rowMax
  {
    DivideMonotone(b.minx - g.originX, b.maxx - g.originX, g.pixelWidth);
    CeilMonotone((b.minx - g.originX) / g.pixelWidth, (b.maxx - g.originX) / g.pixelWidth);
    DivideMonotone(g.originY - b.maxy, g.originY - b.miny, g.pixelHeight);
    TruncMonotone((g.originY - b.maxy) / g.pixelHeight, (g.originY - b.miny) / g.pixelHeight);
  }
}

=== FILE: cumul.dfy ===
/** Contributing areas (`cumulative_areas`). The routes array has one row
    per cell, the route of cell `k + 1` padded with zeros; the percentages
    are indexed like the cells, `pct[v - 1]` belonging to cell `v`. */
module CumulativeArea {
  import opened Common
  import opened Routes

  /** Every entry of the routes array names a cell of the array (or is
      padding). The sum looks every contributor up in the cell table, so
      an entry beyond the table has no percentage. */
  predicate Bounded(routes: seq<seq<nat>>) {
    forall k, t :: 0 <= k < |routes| && 0 <= t < |routes[k]| ==> routes[k][t] <= |routes|
  }

  /** `x` is kept for cell `i`: it is not below `i` and shares a row of
      the routes array with `i`. */
  predicate Contributes(routes: seq<seq<nat>>, i: nat, x: nat) {
    i <= x && exists k :: 0 <= k < |routes| && i in routes[k] && x in routes[k]
  }

  /** The ids kept for cell `i` among `from..|routes|`, in increasing
      order and without repeats (`np.unique`). */
  function Upstream(routes: seq<seq<nat>>, i: nat, from: nat): (r: seq<nat>)
    ensures Increasing(r)
    ensures forall t :: 0 <= t < |r| ==> from <= r[t] <= |routes|
    ensures forall x :: x in r <==> from <= x <= |routes| && Contributes(routes, i, x)
    decreases |routes| + 1 - from
  {
    if from > |routes| then []
    else
      var rest := Upstream(routes, i, from + 1);
      if Contributes(routes, i, from) then
        PrependIncreasing(from, rest);
        [from] + rest
      else rest
  }

  /** The contributors of cell `i`: every id not below `i` on a row that
      holds `i`. Padding zeros fall below `i`. */
  function Contributors(routes: seq<seq<nat>>, i: nat): (r: seq<nat>)
    requires Bounded(routes) && i >= 1
    ensures Increasing(r)
    ensures forall t :: 0 <= t < |r| ==> 1 <= r[t] <= |routes|
    ensures forall x :: x in r <==> Contributes(routes, i, x)
  {
    Upstream(routes, i, 1)
  }

  /** The sum of the percentages of the cells `ids`. */
  function SumPct(pct: seq<real>, ids: seq<nat>): real
    requires forall t :: 0 <= t < |ids| ==> 1 <= ids[t] <= |pct|
  {
    if ids == [] then 0.0 else pct[ids[0] - 1] + SumPct(pct, ids[1..])
  }

  function Total(pct: seq<real>): real {
    if pct == [] then 0.0 else pct[0] + Total(pct[1..])
  }

  predicate NonNegative(pct: seq<real>) {
    forall k :: 0 <= k < |pct| ==> pct[k] >= 0.0
  }

  /** The percentage of the control element each cell covers
      (`pctSurface`). */
  function PctSurface(area: seq<real>, ceArea: real): (pct: seq<real>)
    requires ceArea > 0.0
    ensures |pct| == |area|
    ensures forall k :: 0 <= k < |area| ==> pct[k] * ceArea == area[k] * 100.0
    ensures NonNegative(area) ==> NonNegative(pct)
  {
    seq(|area|, k requires 0 <= k < |area| => area[k] / ceArea * 100.0)
  }

  /** What `cumulative_areas` returns: `cumul[v - 1]` is the contributing
      percentage of cell `v`; `upstream[i]` is the list of contributors
      of cell `i`, and `upstream[0]` stands for the placeholder `0`. */
  datatype Cumulative = Cumulative(cumul: seq<real>, upstream: seq<seq<nat>>)

  /** The contributing percentage of every cell `1..m`. */
  function CumulativeAreas(pct: seq<real>, routes: seq<seq<nat>>): (r: Cumulative)
    requires |pct| == |routes| && Bounded(routes)
    ensures |r.cumul| == |pct| && |r.upstream| == |pct| + 1 && r.upstream[0] == []
    ensures forall i :: 1 <= i <= |pct| ==>
              Increasing(r.upstream[i]) && (forall x :: x in r.upstream[i] <==> Contributes(routes, i, x))
    ensures forall i :: 1 <= i <= |pct| ==> r.cumul[i - 1] == SumPct(pct, Contributors(routes, i))
  {
    Cumulative(seq(|pct|, k requires 0 <= k < |pct| => SumPct(pct, Contributors(routes, k + 1))),
               [[]] + seq(|pct|, k requires 0 <= k < |pct| => Contributors(routes, k + 1)))
  }

  /** `cumulative_areas` as written: `range(len(outlet_routes))` visits the
      ids `0..m-1`, so the cell numbered `m` keeps its initial `0.0` and
      gets no list. */
  function CumulativeAreasAsWritten(pct: seq<real>, routes: seq<seq<nat>>): (r: Cumulative)
    requires |pct| == |routes| && Bounded(routes)
    ensures |r.cumul| == |pct| && |r.upstream| == |pct|
    ensures |pct| >= 1 ==> r.upstream[0] == [] && r.cumul[|pct| - 1] == 0.0
    ensures forall i :: 1 <= i < |pct| ==>
              r.upstream[i] == CumulativeAreas(pct, routes).upstream[i]
              && r.cumul[i - 1] == CumulativeAreas(pct, routes).cumul[i - 1]
  {
    var m := |pct|;
    Cumulative(seq(m, k requires 0 <= k < m => if k + 1 < m then SumPct(pct, Contributors(routes, k + 1)) else 0.0),
               if m == 0 then [] else [[]] + seq(m - 1, k requires 0 <= k < m - 1 => Contributors(routes, k + 1)))
  }

  // ----- the routes of a basin -----

  lemma RoutesBounded(down: seq<nat>, routes: seq<seq<nat>>)
    requires PointsDown(down) && RoutesOf(down, routes)
    ensures Bounded(routes)
  {
    forall k, t | 0 <= k < |routes| && 0 <= t < |routes[k]|
      ensures routes[k][t] <= |routes|
    {
      var e := routes[k][t];
      if e != 0 {
        assert e in routes[k];
        var r := Route(down, k + 1);
        var a :| 0 <= a < |r| && r[a] == e;
      }
    }
  }

  /** Cell `x` contributes to cell `i` exactly when the route of `x`
      passes through `i`: the contributors are the subtree of `i`. */
  lemma SubtreeIff(down: seq<nat>, routes: seq<seq<nat>>, i: nat, x: nat)
    requires PointsDown(down) && RoutesOf(down, routes) && 1 <= i <= |down|
    ensures Contributes(routes, i, x) <==> 1 <= x <= |down| && i in Route(down, x)
  {
    if 1 <= x <= |down| && i in Route(down, x) {
      SubtreeContributes(down, routes, i, x);
    }
    if Contributes(routes, i, x) {
      ContributorInSubtree(down, routes, i, x);
    }
  }

  lemma SubtreeContributes(down: seq<nat>, routes: seq<seq<nat>>, i: nat, x: nat)
    requires PointsDown(down) && RoutesOf(down, routes)
    requires 1 <= i && 1 <= x <= |down| && i in Route(down, x)
    ensures Contributes(routes, i, x)
  {
    var r := Route(down, x);
    var b :| 0 <= b < |r| && r[b] == i;
    assert x in r;
    assert i in routes[x - 1] && x in routes[x - 1];
  }

  lemma ContributorInSubtree(down: seq<nat>, routes: seq<seq<nat>>, i: nat, x: nat)
    requires PointsDown(down) && RoutesOf(down, routes) && 1 <= i && Contributes(routes, i, x)
    ensures 1 <= x <= |down| && i in Route(down, x)
  {
    var k :| 0 <= k < |routes| && i in routes[k] && x in routes[k];
    var w := k + 1;
    InRouteOf(down, routes, w, i);
    InRouteOf(down, routes, w, x);
    OnRouteBelow(down, w, x, i);
  }

  lemma InRouteOf(down: seq<nat>, routes: seq<seq<nat>>, w: nat, y: nat)
    requires PointsDown(down) && RoutesOf(down, routes) && 1 <= w <= |routes| && y != 0 && y in routes[w - 1]
    ensures w <= |down| && y in Route(down, w)
  {
  }

  /** Of two cells on one route, the smaller id is on the larger's route. */
  lemma OnRouteBelow(down: seq<nat>, w: nat, x: nat, i: nat)
    requires PointsDown(down) && 1 <= w <= |down|
    requires x in Route(down, w) && i in Route(down, w) && i <= x
    ensures 1 <= x <= |down| && i in Route(down, x)
  {
    var r := Route(down, w);
    var a :| 0 <= a < |r| && r[a] == x;
    var b :| 0 <= b < |r| && r[b] == i;
    RouteDecreasing(down, w);
    assert a <= b;
    RouteSuffix(down, w, a);
    assert r[a..][b - a] == i;
  }

  /** A route through a cell other than the outlet continues to that
      cell's downstream cell. */
  lemma RouteThrough(down: seq<nat>, x: nat, v: nat)
    requires PointsDown(down) && 1 <= x <= |down| && v in Route(down, x) && v != 1
    ensures down[v - 1] in Route(down, x)
  {
    var r := Route(down, x);
    var a :| 0 <= a < |r| && r[a] == v;
    assert a < |r| - 1;
    RouteFollows(down, x, a);
  }

  /** Every cell contributes to itself. */
  lemma OwnContribution(down: seq<nat>, routes: seq<seq<nat>>, i: nat)
    requires PointsDown(down) && RoutesOf(down, routes) && 1 <= i <= |down|
    ensures Bounded(routes)
    ensures i in Contributors(routes, i)
  {
    RoutesBounded(down, routes);
    SubtreeContributes(down, routes, i, i);
  }

  /** The cell with the largest id has no contributor but itself. */
  lemma LastIsLeaf(down: seq<nat>, routes: seq<seq<nat>>)
    requires PointsDown(down) && RoutesOf(down, routes)
    ensures Bounded(routes)
    ensures Contributors(routes, |down|) == [|down|]
  {
    RoutesBounded(down, routes);
    SubtreeContributes(down, routes, |down|, |down|);
    OnlyItself(routes, |down|);
  }

  /** When the largest id contributes to itself, it is its only
      contributor. */
  lemma OnlyItself(routes: seq<seq<nat>>, m: nat)
    requires Bounded(routes) && |routes| == m >= 1 && Contributes(routes, m, m)
    ensures Contributors(routes, m) == [m]
  {
    var r := Contributors(routes, m);
    assert m in r;
    forall t | 0 <= t < |r|
      ensures r[t] == m
    {
      assert r[t] in r;
    }
    IncreasingSpan(r);
  }

  // ----- sums -----

  lemma {:induction false} SumPrepend(pct: seq<real>, x: nat, s: seq<nat>)
    requires 1 <= x <= |pct| && forall t :: 0 <= t < |s| ==> 1 <= s[t] <= |pct|
    ensures SumPct(pct, [x] + s) == pct[x - 1] + SumPct(pct, s)
  {
    assert ([x] + s)[1..] == s;
  }

  lemma UpstreamUnfold(routes: seq<seq<nat>>, i: nat, from: nat)
    requires from <= |routes|
    ensures Upstream(routes, i, from) ==
            if Contributes(routes, i, from) then [from] + Upstream(routes, i, from + 1) else Upstream(routes, i, from + 1)
  {
  }

  /** Over a common range, a subset of contributors sums to no more. */
  lemma {:induction false} SumMono(pct: seq<real>, routes: seq<seq<nat>>, a: nat, b: nat, from: nat)
    requires |pct| == |routes| && NonNegative(pct) && from >= 1
    requires forall x :: from <= x <= |routes| && Contributes(routes, a, x) ==> Contributes(routes, b, x)
    ensures SumPct(pct, Upstream(routes, a, from)) <= SumPct(pct, Upstream(routes, b, from))
    decreases |routes| + 1 - from
  {
    if from <= |routes| {
      SumMono(pct, routes, a, b, from + 1);
      var ra := Upstream(routes, a, from + 1);
      var rb := Upstream(routes, b, from + 1);
      UpstreamUnfold(routes, a, from);
      UpstreamUnfold(routes, b, from);
      var ca := Contributes(routes, a, from);
      var cb := Contributes(routes, b, from);
      if ca {
        SumPrepend(pct, from, ra);
        SumPrepend(pct, from, rb);
      } else if cb {
        SumPrepend(pct, from, rb);
        assert pct[from - 1] >= 0.0;
      }
    }
  }

  /** When every cell contributes, the sum is the whole table's. */
  lemma {:induction false} SumAll(pct: seq<real>, routes: seq<seq<nat>>, i: nat, from: nat)
    requires |pct| == |routes| && 1 <= from <= |pct| + 1
    requires forall x :: 1 <= x <= |routes| ==> Contributes(routes, i, x)
    ensures SumPct(pct, Upstream(routes, i, from)) == Total(pct[from - 1..])
    decreases |routes| + 1 - from
  {
    if from <= |routes| {
      SumAll(pct, routes, i, from + 1);
      SumPrepend(pct, from, Upstream(routes, i, from + 1));
      assert pct[from - 1..][1..] == pct[from..];
    } else {
      assert pct[from - 1..] == [];
    }
  }

  // ----- properties of the contributing areas -----

  /** The outlet collects the whole basin. */
  lemma OutletTotal(pct: seq<real>, down: seq<nat>, routes: seq<seq<nat>>)
    requires PointsDown(down) && RoutesOf(down, routes) && |pct| == |down|
    ensures Bounded(routes)
    ensures CumulativeAreas(pct, routes).cumul[0] == Total(pct)
  {
    RoutesBounded(down, routes);
    forall x | 1 <= x <= |routes|
      ensures Contributes(routes, 1, x)
    {
      var r := Route(down, x);
      assert r[|r| - 1] == 1;
      SubtreeContributes(down, routes, 1, x);
    }
    SumAll(pct, routes, 1, 1);
    assert pct[0..] == pct;
  }

  /** With non-negative percentages a cell never collects more than the
      cell it drains into. */
  lemma DownstreamCollectsMore(pct: seq<real>, down: seq<nat>, routes: seq<seq<nat>>, k: nat)
    requires PointsDown(down) && RoutesOf(down, routes) && |pct| == |down|
    requires NonNegative(pct) && 1 <= k < |down|
    ensures Bounded(routes)
    ensures CumulativeAreas(pct, routes).cumul[k] <= CumulativeAreas(pct, routes).cumul[down[k] - 1]
  {
    RoutesBounded(down, routes);
    SubtreeNested(down, routes, k);
    SumMono(pct, routes, k + 1, down[k], 1);
  }

  /** The contributors of a cell contribute to its downstream cell. */
  lemma SubtreeNested(down: seq<nat>, routes: seq<seq<nat>>, k: nat)
    requires PointsDown(down) && RoutesOf(down, routes) && 1 <= k < |down|
    ensures forall x :: 1 <= x <= |down| && Contributes(routes, k + 1, x) ==> Contributes(routes, down[k], x)
  {
    forall x | 1 <= x <= |down| && Contributes(routes, k + 1, x)
      ensures Contributes(routes, down[k], x)
    {
      ContributorInSubtree(down, routes, k + 1, x);
      RouteThrough(down, x, k + 1);
      SubtreeContributes(down, routes, down[k], x);
    }
  }

  /** The last cell's contribution is its own percentage. */
  lemma LastCollectsItself(pct: seq<real>, down: seq<nat>, routes: seq<seq<nat>>)
    requires PointsDown(down) && RoutesOf(down, routes) && |pct| == |down|
    ensures Bounded(routes)
    ensures CumulativeAreas(pct, routes).cumul[|pct| - 1] == pct[|pct| - 1]
  {
    LastIsLeaf(down, routes);
    var m := |pct|;
    assert SumPct(pct, [m]) == pct[m - 1] + SumPct(pct, [m][1..]);
  }

  /** As written, the last cell's contribution is lost whenever its
      percentage is not zero; a basin of a single cell reports `0.0` for
      its outlet. */
  lemma AsWrittenLosesLast(pct: seq<real>, down: seq<nat>, routes: seq<seq<nat>>)
    requires PointsDown(down) && RoutesOf(down, routes) && |pct| == |down| && pct[|pct| - 1] != 0.0
    ensures Bounded(routes)
    ensures CumulativeAreasAsWritten(pct, routes).cumul[|pct| - 1] != CumulativeAreas(pct, routes).cumul[|pct| - 1]
  {
    LastCollectsItself(pct, down, routes);
  }
}

=== FILE: extrema.dfy ===
/** First-occurrence arg-max and arg-min over integer sequences: the
    tie-breaking rule of numpy's argmax and pandas' idxmax/idxmin. */
module Extrema {
  import opened Common

  /** Index of the first maximum of `s`. */
  function FirstArgMax(s: seq<int>): (r: nat)
    requires |s| > 0
    ensures r < |s|
    ensures forall k :: 0 <= k < |s| ==> s[k] <= s[r]
    ensures forall k :: 0 <= k < r ==> s[k] < s[r]
    decreases |s|
  {
    if |s| == 1 then 0
    else
      var m := FirstArgMax(s[..|s| - 1]);
      if s[|s| - 1] > s[m] then |s| - 1 else m
  }

  /** Index of the first minimum of `s`. */
  function FirstArgMin(s: seq<int>): (r: nat)
    requires |s| > 0
    ensures r < |s|
    ensures forall k :: 0 <= k < |s| ==> s[r] <= s[k]
    ensures forall k :: 0 <= k < r ==> s[r] < s[k]
    decreases |s|
  {
    if |s| == 1 then 0
    else
      var m := FirstArgMin(s[..|s| - 1]);
      if s[|s| - 1] < s[m] then |s| - 1 else m
  }

  /** The largest element of `s`. */
  function Max(s: seq<int>): (m: int)
    requires |s| > 0
    ensures m in s
    ensures forall k :: 0 <= k < |s| ==> s[k] <= m
  {
    s[FirstArgMax(s)]
  }

  /** pandas `idxmax` (or `max` followed by the first position equal to it)
      over values some of which are missing: missing values are skipped and
      the first largest present value wins; `None` when none is present. */
  function FirstArgMaxPresent(s: seq<Option<int>>): (r: Option<nat>)
    ensures r.None? <==> forall k :: 0 <= k < |s| ==> s[k].None?
    ensures r.Some? ==> r.value < |s| && s[r.value].Some?
    ensures r.Some? ==> forall k :: 0 <= k < |s| && s[k].Some? ==> s[k].value <= s[r.value].value
    ensures r.Some? ==> forall k :: 0 <= k < r.value && s[k].Some? ==> s[k].value < s[r.value].value
    decreases |s|
  {
    if |s| == 0 then None
    else
      var prev := FirstArgMaxPresent(s[..|s| - 1]);
      var x := s[|s| - 1];
      if x.None? then prev
      else
        match prev
        case None => Some(|s| - 1)
        case Some(t) => if x.value > s[t].value then Some(|s| - 1) else prev
  }
}

=== FILE: force4.dfy ===
/** The four-cell cap (`force_4CP`): while a control element holds more than
    four partial cells, its smallest cell joins the neighbour with the
    largest flow accumulation, and the cells are dissolved by id again.

    The cells of one control element are the stable rows `0..n-1`, taken
    to carry distinct ids in ascending order, as the preceding dissolve by
    id leaves them (several rows with one id, which `explode` can produce
    from a multi-part cell, are not modelled). "Dissolve by
    id" is grouping: `owner[p]` is the representative row of `p`'s group and
    the group carries the representative's id, so ascending representative
    order is ascending id order. A group's area is the sum of its rows'
    areas, its accumulation the largest present value (pandas `max`), and two
    groups touch when two of their rows do. */
module ForceFour {
  import opened Common
  import Extrema

  /** A partial cell of the control element: `CPid`, `Area`, `maxFAC`. */
  datatype Part = Part(id: int, area: nat, maxFac: Option<int>)

  /** `owner` groups `n` rows; every representative represents itself. */
  predicate Grouping(owner: seq<nat>, n: nat) {
    && |owner| == n
    && forall p :: 0 <= p < n ==> owner[p] < n && owner[owner[p]] == owner[p]
  }

  /** Every row its own group: the table before the loop. */
  function Identity(n: nat): (o: seq<nat>)
    ensures Grouping(o, n)
    ensures forall p :: 0 <= p < n ==> o[p] == p
  {
    seq(n, p requires 0 <= p < n => p)
  }

  /** The representatives, one per group. */
  function Roots(owner: seq<nat>): set<nat> {
    set r | 0 <= r < |owner| && owner[r] == r
  }

  predicate Increasing(s: seq<nat>) {
    forall a, b :: 0 <= a < b < |s| ==> s[a] < s[b]
  }

  /** The representatives from row `from` on, ascending: the row order of
      the dissolved table. */
  function RootList(owner: seq<nat>, from: nat): (r: seq<nat>)
    requires from <= |owner|
    ensures forall g :: g in r <==> g in Roots(owner) && from <= g
    ensures Increasing(r)
    decreases |owner| - from
  {
    if from == |owner| then []
    else
      var rest := RootList(owner, from + 1);
      if owner[from] == from then
        assert forall a :: 0 < a < |[from] + rest| ==> ([from] + rest)[a] == rest[a - 1] && rest[a - 1] in rest;
        [from] + rest
      else rest
  }

  /** Area of the rows `0..m-1` that belong to group `g`. */
  function AreaUpto(parts: seq<Part>, owner: seq<nat>, g: nat, m: nat): nat
    requires |owner| == |parts| && m <= |parts|
  {
    if m == 0 then 0
    else AreaUpto(parts, owner, g, m - 1) + (if owner[m - 1] == g then parts[m - 1].area else 0)
  }

  /** Area of the dissolved group `g`: the union of disjoint rows. */
  function GroupArea(parts: seq<Part>, owner: seq<nat>, g: nat): nat
    requires |owner| == |parts|
  {
    AreaUpto(parts, owner, g, |parts|)
  }

  /** The larger of two optional values, a missing one skipped. */
  function MaxPresent(a: Option<int>, b: Option<int>): (r: Option<int>)
    ensures r.None? <==> a.None? && b.None?
    ensures a.Some? ==> r.Some? && a.value <= r.value
    ensures b.Some? ==> r.Some? && b.value <= r.value
    ensures r.Some? ==> r == a || r == b
  {
    match (a, b)
    case (None, _) => b
    case (_, None) => a
    case (Some(x), Some(y)) => if x >= y then a else b
  }

  /** Largest accumulation among rows `0..m-1` of group `g`. */
  function FacUpto(parts: seq<Part>, owner: seq<nat>, g: nat, m: nat): Option<int>
    requires |owner| == |parts| && m <= |parts|
  {
    if m == 0 then None
    else MaxPresent(FacUpto(parts, owner, g, m - 1), if owner[m - 1] == g then parts[m - 1].maxFac else None)
  }

  /** `maxFAC` of the dissolved group `g` (aggregation `max`). */
  function GroupFac(parts: seq<Part>, owner: seq<nat>, g: nat): Option<int>
    requires |owner| == |parts|
  {
    FacUpto(parts, owner, g, |parts|)
  }

  /** Groups `a` and `b` are not disjoint. */
  predicate GroupsTouch(touches: (nat, nat) -> bool, owner: seq<nat>, a: nat, b: nat) {
    exists p, q :: 0 <= p < |owner| && 0 <= q < |owner| && owner[p] == a && owner[q] == b && touches(p, q)
  }

  /** The neighbour groups of `s` among `gs`, order kept. */
  function Touching(touches: (nat, nat) -> bool, owner: seq<nat>, s: nat, gs: seq<nat>): (r: seq<nat>)
    ensures forall h :: h in r <==> h in gs && h != s && GroupsTouch(touches, owner, s, h)
    ensures Increasing(gs) ==> Increasing(r)
  {
    if gs == [] then []
    else
      var rest := Touching(touches, owner, s, gs[1..]);
      assert forall h :: h in gs[1..] ==> h in gs;
      if gs[0] != s && GroupsTouch(touches, owner, s, gs[0]) then
        if Increasing(gs) then
          assert forall h :: h in gs[1..] ==> gs[0] < h;
          PrependIncreasing(gs[0], rest);
          [gs[0]] + rest
        else [gs[0]] + rest
      else rest
  }

  /** One merge of the loop: the smallest group, the group it joins, and
      the smallest area (every group of that area is relabelled). */
  datatype Choice = Choice(smallest: nat, target: nat, minArea: nat)

  /** What a choice must satisfy for the merge to make progress. */
  predicate Valid(parts: seq<Part>, touches: (nat, nat) -> bool, owner: seq<nat>, c: Choice)
    requires Grouping(owner, |parts|)
  {
    && c.smallest in Roots(owner) && c.target in Roots(owner) && c.smallest != c.target
    && GroupArea(parts, owner, c.smallest) == c.minArea
    && GroupsTouch(touches, owner, c.smallest, c.target)
  }

  /** The first group (in id order) of least area, and that area. */
  function Smallest(parts: seq<Part>, owner: seq<nat>): (r: (nat, nat))
    requires Grouping(owner, |parts|) && |Roots(owner)| > 0
    ensures r.0 in Roots(owner) && GroupArea(parts, owner, r.0) == r.1
    ensures forall g :: g in Roots(owner) ==> r.1 <= GroupArea(parts, owner, g)
    ensures forall g :: g in Roots(owner) && g < r.0 ==> r.1 < GroupArea(parts, owner, g)
  {
    var roots := RootList(owner, 0);
    assert roots != [] by {
      var g :| g in Roots(owner);
      assert g in roots;
    }
    var areas := seq(|roots|, i requires 0 <= i < |roots| => GroupArea(parts, owner, roots[i]) as int);
    var i := Extrema.FirstArgMin(areas);
    forall g | g in Roots(owner)
      ensures areas[i] <= GroupArea(parts, owner, g)
      ensures g < roots[i] ==> areas[i] < GroupArea(parts, owner, g)
    {
      assert g in roots;
      var u :| 0 <= u < |roots| && roots[u] == g;
      assert areas[u] == GroupArea(parts, owner, g);
    }
    (roots[i], areas[i])
  }

  /** Group `h` is a neighbour of group `s`. */
  predicate IsNeighbourGroup(touches: (nat, nat) -> bool, owner: seq<nat>, s: nat, h: nat) {
    h in Roots(owner) && h != s && GroupsTouch(touches, owner, s, h)
  }

  /** The accumulations of the groups `gs`, in the order of `gs`. */
  function Facs(parts: seq<Part>, owner: seq<nat>, gs: seq<nat>): (r: seq<Option<int>>)
    requires |owner| == |parts|
    ensures |r| == |gs| && forall u :: 0 <= u < |gs| ==> r[u] == GroupFac(parts, owner, gs[u])
  {
    seq(|gs|, u requires 0 <= u < |gs| => GroupFac(parts, owner, gs[u]))
  }

  /** Among the groups touching `s`, the first (in id order) of largest
      accumulation, groups without a value skipped as pandas `max` skips
      them. Fails, as the source's `idx_maxFAC[0]` does, when no group
      touches `s` or none of those that do has a value. */
  function LargestNeighbour(parts: seq<Part>, touches: (nat, nat) -> bool, owner: seq<nat>, s: nat): (r: Result<nat>)
    requires Grouping(owner, |parts|)
    ensures r.Ok? ==> IsNeighbourGroup(touches, owner, s, r.value) && GroupFac(parts, owner, r.value).Some?
    ensures r.Ok? ==>
              forall h: nat :: IsNeighbourGroup(touches, owner, s, h) && GroupFac(parts, owner, h).Some? ==>
                GroupFac(parts, owner, h).value <= GroupFac(parts, owner, r.value).value
    ensures r.Ok? ==>
              forall h: nat :: IsNeighbourGroup(touches, owner, s, h) && GroupFac(parts, owner, h).Some? && h < r.value ==>
                GroupFac(parts, owner, h).value < GroupFac(parts, owner, r.value).value
    ensures r == Err(IsolatedCell) <==> forall h: nat :: !IsNeighbourGroup(touches, owner, s, h)
    ensures r.Err? <==> forall h: nat :: IsNeighbourGroup(touches, owner, s, h) ==> GroupFac(parts, owner, h).None?
    ensures r.Err? ==> r.fault == IsolatedCell || r.fault == MissingAccumulation
  {
    var nbrs := Touching(touches, owner, s, RootList(owner, 0));
    assert forall h: nat :: IsNeighbourGroup(touches, owner, s, h) <==> h in nbrs;
    if nbrs == [] then Err(IsolatedCell)
    else
      assert nbrs[0] in nbrs;
      var facs := Facs(parts, owner, nbrs);
      match Extrema.FirstArgMaxPresent(facs)
      case None =>
        assert forall h :: h in nbrs ==> GroupFac(parts, owner, h).None? by {
          forall h | h in nbrs ensures GroupFac(parts, owner, h).None? {
            var u :| 0 <= u < |nbrs| && nbrs[u] == h;
          }
        }
        Err(MissingAccumulation)
      case Some(t) =>
        forall h | h in nbrs && GroupFac(parts, owner, h).Some?
          ensures GroupFac(parts, owner, h).value <= facs[t].value
          ensures h < nbrs[t] ==> GroupFac(parts, owner, h).value < facs[t].value
        {
          var u :| 0 <= u < |nbrs| && nbrs[u] == h;
          assert facs[u] == GroupFac(parts, owner, h);
        }
        Ok(nbrs[t])
  }

  /** A neighbour without an accumulation value does not stop the merge:
      with three mutually touching cells, the middle one without `maxFAC`,
      the first cell joins the third. */
  lemma MissingNeighbourSkipped()
    ensures LargestNeighbour([Part(1, 1, Some(5)), Part(2, 10, None), Part(3, 10, Some(7))],
                             (p: nat, q: nat) => true, Identity(3), 0) == Ok(2)
  {
    var parts := [Part(1, 1, Some(5)), Part(2, 10, None), Part(3, 10, Some(7))];
    var touches := (p: nat, q: nat) => true;
    var owner := Identity(3);
    assert owner == [0, 1, 2];
    assert FacUpto(parts, owner, 1, 1) == None;
    assert FacUpto(parts, owner, 1, 2) == None;
    assert GroupFac(parts, owner, 1) == None;
    assert FacUpto(parts, owner, 2, 2) == None;
    assert GroupFac(parts, owner, 2) == Some(7);
    assert IsNeighbourGroup(touches, owner, 0, 2) by {
      assert owner[0] == 0 && owner[2] == 2 && touches(0, 2);
    }
    var r := LargestNeighbour(parts, touches, owner, 0);
    assert r.value != 1;
  }

  /** The loop body's selection: the first group of least area and, among
      the groups it touches, the first of largest accumulation. Fails (as
      numpy does) when no group it touches has an accumulation value. */
  function Choose(parts: seq<Part>, touches: (nat, nat) -> bool, owner: seq<nat>): (r: Result<Choice>)
    requires Grouping(owner, |parts|) && |Roots(owner)| > 0
    ensures r.Ok? ==> Valid(parts, touches, owner, r.value)
    ensures r.Ok? ==> forall g :: g in Roots(owner) ==> r.value.minArea <= GroupArea(parts, owner, g)
    ensures r.Ok? ==> forall g :: g in Roots(owner) && g < r.value.smallest ==> r.value.minArea < GroupArea(parts, owner, g)
    ensures r.Ok? ==> GroupFac(parts, owner, r.value.target).Some?
    ensures r.Ok? ==>
              forall h: nat :: IsNeighbourGroup(touches, owner, r.value.smallest, h) && GroupFac(parts, owner, h).Some? ==>
                GroupFac(parts, owner, h).value <= GroupFac(parts, owner, r.value.target).value
    ensures r.Ok? ==>
              forall h: nat :: IsNeighbourGroup(touches, owner, r.value.smallest, h) && h < r.value.target &&
                               GroupFac(parts, owner, h).Some? ==>
                GroupFac(parts, owner, h).value < GroupFac(parts, owner, r.value.target).value
    ensures var s := Smallest(parts, owner).0;
            r.Err? <==> forall h: nat :: IsNeighbourGroup(touches, owner, s, h) ==> GroupFac(parts, owner, h).None?
    ensures r.Err? ==> r.fault == IsolatedCell || r.fault == MissingAccumulation
  {
    var (s, minArea) := Smallest(parts, owner);
    match LargestNeighbour(parts, touches, owner, s)
    case Err(f) => Err(f)
    case Ok(t) => Ok(Choice(s, t, minArea))
  }

  /** Every group of the least area takes the target's id: numpy selects
      all rows equal to the minimum. Every row of such a group joins the
      target; every other row stays in its group. */
  function Merge(parts: seq<Part>, owner: seq<nat>, c: Choice): (r: seq<nat>)
    requires |owner| == |parts|
    ensures |r| == |owner|
    ensures forall p :: 0 <= p < |owner| && GroupArea(parts, owner, owner[p]) == c.minArea ==> r[p] == c.target
    ensures forall p :: 0 <= p < |owner| && GroupArea(parts, owner, owner[p]) != c.minArea ==> r[p] == owner[p]
  {
    seq(|owner|, p requires 0 <= p < |owner| =>
      if GroupArea(parts, owner, owner[p]) == c.minArea then c.target else owner[p])
  }

  /** Rows grouped together stay together. */
  predicate Coarser(owner: seq<nat>, finer: seq<nat>)
    requires |owner| == |finer|
  {
    forall p, q :: 0 <= p < |finer| && 0 <= q < |finer| && finer[p] == finer[q] ==> owner[p] == owner[q]
  }

  /** A valid merge removes the smallest group and adds none. */
  lemma MergeShrinks(parts: seq<Part>, touches: (nat, nat) -> bool, owner: seq<nat>, c: Choice)
    requires Grouping(owner, |parts|) && Valid(parts, touches, owner, c)
    ensures Grouping(Merge(parts, owner, c), |parts|)
    ensures Roots(Merge(parts, owner, c)) < Roots(owner)
    ensures |Roots(Merge(parts, owner, c))| < |Roots(owner)|
    ensures Coarser(Merge(parts, owner, c), owner)
    ensures Merge(parts, owner, c)[c.smallest] == c.target
  {
    var m := Merge(parts, owner, c);
    assert c.smallest !in Roots(m);
    assert Roots(m) <= Roots(owner) - {c.smallest};
    SubsetCard(Roots(m), Roots(owner) - {c.smallest});
  }

  lemma SubsetCard<T>(a: set<T>, b: set<T>)
    requires a <= b
    ensures |a| <= |b|
  {
    assert b == a + (b - a);
    assert a * (b - a) == {};
  }

  /** The loop is stuck at grouping `o`: it still has more than four
      groups, and the selection of the next merge fails with `f`. */
  predicate Stuck(parts: seq<Part>, touches: (nat, nat) -> bool, o: seq<nat>, f: Fault) {
    && Grouping(o, |parts|)
    && |Roots(o)| > 4
    && Choose(parts, touches, o) == Err(f)
  }

  lemma CoarserTrans(a: seq<nat>, b: seq<nat>, c: seq<nat>)
    requires |a| == |b| == |c| && Coarser(a, b) && Coarser(b, c)
    ensures Coarser(a, c)
  {
  }

  /** A grouping the loop gets stuck at, coarser than a merge of `owner`,
      is coarser than `owner` itself. */
  lemma StuckLifts(parts: seq<Part>, touches: (nat, nat) -> bool, m: seq<nat>, owner: seq<nat>, r: Result<seq<nat>>)
    requires Grouping(owner, |parts|) && Grouping(m, |parts|) && Coarser(m, owner)
    requires r.Err? ==> exists o :: Stuck(parts, touches, o, r.fault) && Coarser(o, m)
    ensures r.Err? ==> exists o :: Stuck(parts, touches, o, r.fault) && Coarser(o, owner)
  {
    if r.Err? {
      var o :| Stuck(parts, touches, o, r.fault) && Coarser(o, m);
      CoarserTrans(o, m, owner);
    }
  }

  /** The loop `while len(CE_features) > 4`. It fails only by getting
      stuck: at some grouping it reaches, coarser than the one it started
      from and still holding more than four groups, the selection of the
      next merge fails. */
  function Cap(parts: seq<Part>, touches: (nat, nat) -> bool, owner: seq<nat>): (r: Result<seq<nat>>)
    requires Grouping(owner, |parts|)
    ensures r.Ok? ==> Grouping(r.value, |parts|) && |Roots(r.value)| <= 4
    ensures r.Ok? ==> Coarser(r.value, owner) && Roots(r.value) <= Roots(owner)
    ensures |Roots(owner)| <= 4 ==> r == Ok(owner)
    ensures r.Err? ==> exists o :: Stuck(parts, touches, o, r.fault) && Coarser(o, owner)
    ensures r.Err? ==> r.fault == IsolatedCell || r.fault == MissingAccumulation
    decreases |Roots(owner)|
  {
    if |Roots(owner)| <= 4 then Ok(owner)
    else
      match Choose(parts, touches, owner)
      case Err(f) =>
        assert Stuck(parts, touches, owner, f) && Coarser(owner, owner);
        Err(f)
      case Ok(c) =>
        MergeShrinks(parts, touches, owner, c);
        var m := Merge(parts, owner, c);
        var r := Cap(parts, touches, m);
        StuckLifts(parts, touches, m, owner, r);
        r
  }

  /** The `CPid` column: every row carries its group's id. */
  function Labels(parts: seq<Part>, owner: seq<nat>): (r: seq<int>)
    requires Grouping(owner, |parts|)
    ensures |r| == |parts|
    ensures forall p :: 0 <= p < |parts| ==> r[p] == parts[owner[p]].id
  {
    seq(|parts|, p requires 0 <= p < |parts| => parts[owner[p]].id)
  }

  function LabelSet(labels: seq<int>): set<int> {
    set p | 0 <= p < |labels| :: labels[p]
  }

  /** The input ids of the control element's cells. */
  function Ids(parts: seq<Part>): set<int> {
    set q | 0 <= q < |parts| :: parts[q].id
  }

  lemma {:induction false} ImageNoLarger(parts: seq<Part>, s: set<nat>)
    requires forall r :: r in s ==> r < |parts|
    ensures |set r | r in s :: parts[r].id| <= |s|
    decreases |s|
  {
    if s != {} {
      var x :| x in s;
      ImageNoLarger(parts, s - {x});
      var img := set r | r in s :: parts[r].id;
      var rest := set r | r in s - {x} :: parts[r].id;
      assert img <= rest + {parts[x].id};
      SubsetCard(img, rest + {parts[x].id});
    }
  }

  lemma {:induction false} BoundedCard(s: set<nat>, n: nat)
    requires forall x :: x in s ==> x < n
    ensures |s| <= n
  {
    if n > 0 {
      BoundedCard(s - {n - 1}, n - 1);
    }
  }

  /** There are no more distinct labels than groups. */
  lemma FewLabels(parts: seq<Part>, owner: seq<nat>)
    requires Grouping(owner, |parts|)
    ensures |LabelSet(Labels(parts, owner))| <= |Roots(owner)|
  {
    var labels := Labels(parts, owner);
    assert LabelSet(labels) == set r | r in Roots(owner) :: parts[r].id by {
      forall p | 0 <= p < |labels| ensures labels[p] in set r | r in Roots(owner) :: parts[r].id {
        assert owner[p] in Roots(owner);
      }
      forall r | r in Roots(owner) ensures parts[r].id in LabelSet(labels) {
        assert labels[r] == parts[r].id;
      }
    }
    ImageNoLarger(parts, Roots(owner));
  }

  /** The cap for one control element, as it should be: the `CPid` column
      ends with at most four distinct ids, each an input id; a control
      element with four cells or fewer is left as it is. It fails only
      where the loop gets stuck on a grouping of more than four groups. */
  function ForceFourCE(parts: seq<Part>, touches: (nat, nat) -> bool): (r: Result<seq<int>>)
    ensures r.Ok? ==> |r.value| == |parts| && |LabelSet(r.value)| <= 4
    ensures r.Ok? ==> forall p :: 0 <= p < |parts| ==> exists q :: 0 <= q < |parts| && r.value[p] == parts[q].id
    ensures |parts| <= 4 ==> r == Ok(seq(|parts|, p requires 0 <= p < |parts| => parts[p].id))
    ensures r.Err? ==> exists o :: Stuck(parts, touches, o, r.fault) && Coarser(o, Identity(|parts|))
    ensures r.Err? ==> r.fault == IsolatedCell || r.fault == MissingAccumulation
  {
    var start := Identity(|parts|);
    BoundedCard(Roots(start), |parts|);
    match Cap(parts, touches, start)
    case Err(f) => Err(f)
    case Ok(owner) =>
      var labels := Labels(parts, owner);
      FewLabels(parts, owner);
      assert forall p :: 0 <= p < |parts| ==> labels[p] == parts[owner[p]].id && owner[p] < |parts|;
      assert |parts| <= 4 ==> labels == seq(|parts|, p requires 0 <= p < |parts| => parts[p].id);
      Ok(labels)
  }

  /** As written, `CP_fishnet.loc[idx_replaced, "CPid"]` looks rows up by
      their ORIGINAL id, so in the cell table only the representative row of
      each least-area group takes the target's id; the other members keep
      the id of the group they had joined earlier. */
  function RelabelAsWritten(parts: seq<Part>, owner: seq<nat>, c: Choice, written: seq<int>): (r: seq<int>)
    requires |owner| == |parts| == |written| && c.target < |parts|
    ensures |r| == |written|
    ensures forall p :: 0 <= p < |r| && owner[p] != p ==> r[p] == written[p]
    ensures forall p :: 0 <= p < |r| ==> r[p] == written[p] || r[p] == parts[c.target].id
  {
    seq(|written|, p requires 0 <= p < |written| =>
      if owner[p] == p && GroupArea(parts, owner, p) == c.minArea then parts[c.target].id else written[p])
  }

  /** The loop as written: the grouping of the control element evolves as in
      `Cap`, the cell table's `CPid` column through `RelabelAsWritten`. It
      makes the same choices as `Cap`, so it fails exactly when `Cap` does,
      and it writes no id but those it started with and the cells' own. */
  function CapAsWritten(parts: seq<Part>, touches: (nat, nat) -> bool, owner: seq<nat>, written: seq<int>): (r: Result<seq<int>>)
    requires Grouping(owner, |parts|) && |written| == |parts|
    ensures r.Ok? ==> |r.value| == |parts|
    ensures r.Err? <==> Cap(parts, touches, owner).Err?
    ensures |Roots(owner)| <= 4 ==> r == Ok(written)
    ensures r.Ok? ==> LabelSet(r.value) <= LabelSet(written) + Ids(parts)
    decreases |Roots(owner)|
  {
    if |Roots(owner)| <= 4 then Ok(written)
    else
      match Choose(parts, touches, owner)
      case Err(f) => Err(f)
      case Ok(c) =>
        MergeShrinks(parts, touches, owner, c);
        CapAsWritten(parts, touches, Merge(parts, owner, c), RelabelAsWritten(parts, owner, c, written))
  }

  /** `force_4CP` for one control element, as written: it fails exactly when
      the corrected cap fails, every id it leaves is an input id, and a
      control element with four cells or fewer keeps its ids. */
  function ForceFourCEAsWritten(parts: seq<Part>, touches: (nat, nat) -> bool): (r: Result<seq<int>>)
    ensures r.Ok? ==> |r.value| == |parts|
    ensures r.Err? <==> ForceFourCE(parts, touches).Err?
    ensures r.Ok? ==> LabelSet(r.value) <= Ids(parts)
    ensures |parts| <= 4 ==> r == Ok(seq(|parts|, p requires 0 <= p < |parts| => parts[p].id))
  {
    var ids := seq(|parts|, p requires 0 <= p < |parts| => parts[p].id);
    assert LabelSet(ids) == Ids(parts) by {
      forall x | x in Ids(parts) ensures x in LabelSet(ids) {
        var q :| 0 <= q < |parts| && parts[q].id == x;
        assert ids[q] == x;
      }
    }
    BoundedCard(Roots(Identity(|parts|)), |parts|);
    CapAsWritten(parts, touches, Identity(|parts|), ids)
  }

  predicate DistinctIds(parts: seq<Part>) {
    forall p, q :: 0 <= p < q < |parts| ==> parts[p].id != parts[q].id
  }

  /** The as-written relabelling splits a group: once the least-area group
      already holds a second row (it absorbed a cell in an earlier round),
      that row keeps the old id while the representative takes the new one,
      although the merge puts both in the same group. */
  lemma AsWrittenSplitsGroup(parts: seq<Part>, touches: (nat, nat) -> bool, owner: seq<nat>, c: Choice, p: nat)
    requires Grouping(owner, |parts|) && Valid(parts, touches, owner, c) && DistinctIds(parts)
    requires p < |parts| && owner[p] == c.smallest && p != c.smallest
    ensures Merge(parts, owner, c)[p] == Merge(parts, owner, c)[c.smallest]
    ensures RelabelAsWritten(parts, owner, c, Labels(parts, owner))[p] != RelabelAsWritten(parts, owner, c, Labels(parts, owner))[c.smallest]
  {
    var w := RelabelAsWritten(parts, owner, c, Labels(parts, owner));
    assert w[p] == parts[c.smallest].id;
    assert w[c.smallest] == parts[c.target].id;
  }
}

=== FILE: outlet.dfy ===
/** Outlet and inlet pixels of one partial cell (the loop body of
    `routing_table`). The raster windows around the cell (the cell-id and
    flow-accumulation arrays sliced to the cell's bounds widened by one
    pixel) are the inputs; all pixels are window coordinates. */
module OutletInlet {
  import opened Common
  import Extrema

  type Grid = seq<seq<int>>

  /** `g` has `rows` rows of `cols` values each. */
  predicate Rect(g: Grid, rows: nat, cols: nat) {
    |g| == rows && forall i :: 0 <= i < rows ==> |g[i]| == cols
  }

  datatype Pixel = Pixel(row: nat, col: nat)

  /** Pixel `(a, b)` comes before `p` in row-major order. */
  predicate Before(a: nat, b: nat, p: Pixel) {
    a < p.row || (a == p.row && b < p.col)
  }

  /** `FAC_array[FAC_array < 0] = 0`: no-data and other negative values
      become zero. */
  function ClampNegative(g: Grid, rows: nat, cols: nat): (r: Grid)
    requires Rect(g, rows, cols)
    ensures Rect(r, rows, cols)
    ensures forall i, j :: 0 <= i < rows && 0 <= j < cols ==>
              r[i][j] >= 0 && (g[i][j] >= 0 ==> r[i][j] == g[i][j]) && (g[i][j] < 0 ==> r[i][j] == 0)
  {
    seq(rows, i requires 0 <= i < rows => seq(cols, j requires 0 <= j < cols => if g[i][j] < 0 then 0 else g[i][j]))
  }

  /** numpy `argmax` followed by `unravel_index`: the first maximum in
      row-major order. */
  function GridArgMax(g: Grid, rows: nat, cols: nat): (p: Pixel)
    requires rows > 0 && cols > 0 && Rect(g, rows, cols)
    ensures p.row < rows && p.col < cols
    ensures forall a, b :: 0 <= a < rows && 0 <= b < cols ==> g[a][b] <= g[p.row][p.col]
    ensures forall a, b :: 0 <= a < rows && 0 <= b < cols && Before(a, b, p) ==> g[a][b] < g[p.row][p.col]
  {
    var maxima := seq(rows, i requires 0 <= i < rows => Extrema.Max(g[i]));
    var i := Extrema.FirstArgMax(maxima);
    var j := Extrema.FirstArgMax(g[i]);
    assert forall a, b :: 0 <= a < rows && 0 <= b < cols ==> g[a][b] <= maxima[a];
    Pixel(i, j)
  }

  /** On a grid without negative values, a first maximum of zero is the
      first pixel. */
  lemma ZeroMaxAtOrigin(g: Grid, rows: nat, cols: nat)
    requires rows > 0 && cols > 0 && Rect(g, rows, cols) && NonNegative(g, rows, cols)
    ensures var p := GridArgMax(g, rows, cols); g[p.row][p.col] == 0 ==> p == Pixel(0, 0)
  {
    var p := GridArgMax(g, rows, cols);
    if p != Pixel(0, 0) {
      assert Before(0, 0, p);
    }
  }

  /** `subFAC * mask_CP`: the accumulation on the cell's own pixels, zero
      elsewhere. */
  function Masked(fac: Grid, cp: Grid, id: int, rows: nat, cols: nat): (r: Grid)
    requires Rect(fac, rows, cols) && Rect(cp, rows, cols)
    ensures Rect(r, rows, cols)
    ensures forall i, j :: 0 <= i < rows && 0 <= j < cols ==> r[i][j] == if cp[i][j] == id then fac[i][j] else 0
  {
    seq(rows, i requires 0 <= i < rows => seq(cols, j requires 0 <= j < cols => if cp[i][j] == id then fac[i][j] else 0))
  }

  /** A rectangle of rows `rowLo..rowHi-1` and columns `colLo..colHi-1`. */
  datatype Window = Window(rowLo: nat, rowHi: nat, colLo: nat, colHi: nat)

  predicate InWindow(w: Window, i: nat, j: nat) {
    w.rowLo <= i < w.rowHi && w.colLo <= j < w.colHi
  }

  /** `subFAC * mask_FAC`: the accumulation inside the window, zero outside. */
  function Windowed(fac: Grid, w: Window, rows: nat, cols: nat): (r: Grid)
    requires Rect(fac, rows, cols)
    ensures Rect(r, rows, cols)
    ensures forall i, j :: 0 <= i < rows && 0 <= j < cols ==> r[i][j] == if InWindow(w, i, j) then fac[i][j] else 0
  {
    seq(rows, i requires 0 <= i < rows => seq(cols, j requires 0 <= j < cols => if InWindow(w, i, j) then fac[i][j] else 0))
  }

  /** How numpy reads a slice bound on an axis of length `n`: a negative
      bound counts from the end, and bounds are clipped to `0..n`. */
  function SliceBound(i: int, n: nat): (r: nat)
    ensures r <= n
    ensures 0 <= i <= n ==> r == i
    ensures i < 0 && i + n >= 0 ==> r == i + n
    ensures i + n < 0 ==> r == 0
    ensures i > n ==> r == n
  {
    if i < 0 then (if i + n < 0 then 0 else i + n) else if i > n then n else i
  }

  /** The 3x3 window as written: `mask_FAC[outlet_row-1:outlet_row+2,
      outlet_col-1:outlet_col+2] = 1`. Away from the first row and column
      it is the clipped neighbourhood; on the first row of a window of
      three or more rows it selects no row at all. */
  function WindowAsWritten(o: Pixel, rows: nat, cols: nat): (w: Window)
    ensures w.rowHi <= rows && w.colHi <= cols
    ensures 0 < o.row < rows && 0 < o.col < cols ==> w == Neighbourhood(o, rows, cols)
    ensures o.row == 0 && rows >= 3 ==> forall i: nat, j: nat :: !InWindow(w, i, j)
    ensures o.col == 0 && cols >= 3 ==> forall i: nat, j: nat :: !InWindow(w, i, j)
  {
    Window(SliceBound(o.row - 1, rows), SliceBound(o.row + 2, rows),
           SliceBound(o.col - 1, cols), SliceBound(o.col + 2, cols))
  }

  /** The 3x3 window around the outlet, clipped to the raster window. */
  function Neighbourhood(o: Pixel, rows: nat, cols: nat): (w: Window)
    requires o.row < rows && o.col < cols
    ensures InWindow(w, o.row, o.col)
    ensures forall i: nat, j: nat :: i < rows && j < cols ==>
              (InWindow(w, i, j) <==> -1 <= i - o.row <= 1 && -1 <= j - o.col <= 1)
  {
    Window(if o.row == 0 then 0 else o.row - 1, if o.row + 2 > rows then rows else o.row + 2,
           if o.col == 0 then 0 else o.col - 1, if o.col + 2 > cols then cols else o.col + 2)
  }

  /** One row of the routing data: the outlet pixel, the inlet pixel and the
      id of the cell that owns the inlet (`inCPid`). */
  datatype Located = Located(outlet: Pixel, inlet: Pixel, inCp: int)

  /** Some pixel of the cell carries a positive accumulation. */
  predicate Drains(fac: Grid, cp: Grid, id: int, rows: nat, cols: nat)
    requires Rect(fac, rows, cols) && Rect(cp, rows, cols)
  {
    exists i, j :: 0 <= i < rows && 0 <= j < cols && cp[i][j] == id && fac[i][j] > 0
  }

  predicate NonNegative(g: Grid, rows: nat, cols: nat)
    requires Rect(g, rows, cols)
  {
    forall i, j :: 0 <= i < rows && 0 <= j < cols ==> g[i][j] >= 0
  }

  /** `(a, b)` is within one pixel of `p` in both directions. */
  predicate Adjacent(a: int, b: int, p: Pixel) {
    -1 <= a - p.row <= 1 && -1 <= b - p.col <= 1
  }

  /** The outlet: the first row-major maximum of the masked accumulation.
      A cell that drains somewhere has it on its own pixels, at its largest
      accumulation. */
  function Outlet(fac: Grid, cp: Grid, id: int, rows: nat, cols: nat): (o: Pixel)
    requires rows > 0 && cols > 0 && Rect(fac, rows, cols) && Rect(cp, rows, cols)
    ensures o.row < rows && o.col < cols
    ensures forall a, b :: 0 <= a < rows && 0 <= b < cols && cp[a][b] == id ==>
              fac[a][b] <= Masked(fac, cp, id, rows, cols)[o.row][o.col]
    ensures forall a, b :: 0 <= a < rows && 0 <= b < cols && Before(a, b, o) ==>
              Masked(fac, cp, id, rows, cols)[a][b] < Masked(fac, cp, id, rows, cols)[o.row][o.col]
    ensures Drains(fac, cp, id, rows, cols) ==>
              cp[o.row][o.col] == id &&
              forall a, b :: 0 <= a < rows && 0 <= b < cols && cp[a][b] == id ==> fac[a][b] <= fac[o.row][o.col]
  {
    var masked := Masked(fac, cp, id, rows, cols);
    var o := GridArgMax(masked, rows, cols);
    assert Drains(fac, cp, id, rows, cols) ==> masked[o.row][o.col] > 0 by {
      if Drains(fac, cp, id, rows, cols) {
        var i, j :| 0 <= i < rows && 0 <= j < cols && cp[i][j] == id && fac[i][j] > 0;
        assert masked[i][j] > 0;
      }
    }
    o
  }

  /** The inlet: the first row-major maximum of the accumulation in the 3x3
      neighbourhood of the outlet. It is the largest accumulation around
      the outlet, never below the outlet's, and every pixel around the
      outlet that comes before it is smaller. It is next to the outlet (or
      the outlet itself) when some pixel around the outlet carries flow;
      when none does, the all-zero window puts it on pixel (0, 0). */
  function Inlet(fac: Grid, o: Pixel, rows: nat, cols: nat): (n: Pixel)
    requires o.row < rows && o.col < cols && Rect(fac, rows, cols) && NonNegative(fac, rows, cols)
    ensures n.row < rows && n.col < cols
    ensures forall a, b :: 0 <= a < rows && 0 <= b < cols && Adjacent(a, b, o) ==> fac[a][b] <= fac[n.row][n.col]
    ensures forall a, b :: 0 <= a < rows && 0 <= b < cols && Adjacent(a, b, o) && Before(a, b, n) ==>
              fac[a][b] < fac[n.row][n.col]
    ensures fac[n.row][n.col] >= fac[o.row][o.col]
    ensures (exists a, b :: 0 <= a < rows && 0 <= b < cols && Adjacent(a, b, o) && fac[a][b] > 0) ==> Adjacent(n.row, n.col, o)
    ensures (forall a, b :: 0 <= a < rows && 0 <= b < cols && Adjacent(a, b, o) ==> fac[a][b] == 0) ==> n == Pixel(0, 0)
  {
    var w := Neighbourhood(o, rows, cols);
    var z := Windowed(fac, w, rows, cols);
    var n := GridArgMax(z, rows, cols);
    assert z[o.row][o.col] == fac[o.row][o.col];
    ZeroMaxAtOrigin(z, rows, cols);
    PositiveNeighbourInWindow(fac, o, rows, cols);
    n
  }

  /** A positive pixel around the outlet makes the windowed maximum
      positive, so it lies inside the window. */
  lemma PositiveNeighbourInWindow(fac: Grid, o: Pixel, rows: nat, cols: nat)
    requires o.row < rows && o.col < cols && Rect(fac, rows, cols) && NonNegative(fac, rows, cols)
    ensures var z := Windowed(fac, Neighbourhood(o, rows, cols), rows, cols);
            var n := GridArgMax(z, rows, cols);
            (exists a, b :: 0 <= a < rows && 0 <= b < cols && Adjacent(a, b, o) && fac[a][b] > 0) ==> Adjacent(n.row, n.col, o)
  {
    var w := Neighbourhood(o, rows, cols);
    var z := Windowed(fac, w, rows, cols);
    var n := GridArgMax(z, rows, cols);
    if exists a, b :: 0 <= a < rows && 0 <= b < cols && Adjacent(a, b, o) && fac[a][b] > 0 {
      var a, b :| 0 <= a < rows && 0 <= b < cols && Adjacent(a, b, o) && fac[a][b] > 0;
      assert z[a][b] > 0;
      assert InWindow(w, n.row, n.col);
    }
  }

  /** The inlet is always next to the outlet. A cell whose outlet carries no
      flow has an all-zero masked accumulation, so its outlet is pixel
      (0, 0), and then so is its inlet unless some pixel around it carries
      flow. */
  lemma InletNextToOutlet(fac: Grid, cp: Grid, id: int, rows: nat, cols: nat)
    requires rows > 0 && cols > 0 && Rect(fac, rows, cols) && Rect(cp, rows, cols) && NonNegative(fac, rows, cols)
    ensures var o := Outlet(fac, cp, id, rows, cols);
            var n := Inlet(fac, o, rows, cols);
            Adjacent(n.row, n.col, o)
  {
    var m := Masked(fac, cp, id, rows, cols);
    var o := Outlet(fac, cp, id, rows, cols);
    var n := Inlet(fac, o, rows, cols);
    if !(exists a, b :: 0 <= a < rows && 0 <= b < cols && Adjacent(a, b, o) && fac[a][b] > 0) {
      assert fac[o.row][o.col] == 0;
      assert m[o.row][o.col] == 0;
      ZeroMaxAtOrigin(m, rows, cols);
    }
  }

  /** Outlet and inlet of cell `id`, and the cell the inlet belongs to.
      `rawFac` is the accumulation window before negative values are
      cleared. An empty window makes numpy's `argmax` raise. */
  function Locate(rawFac: Grid, cp: Grid, id: int, rows: nat, cols: nat): (r: Result<Located>)
    requires Rect(rawFac, rows, cols) && Rect(cp, rows, cols)
    ensures r.Err? <==> rows == 0 || cols == 0
    ensures r.Ok? ==>
              var fac := ClampNegative(rawFac, rows, cols);
              var o := r.value.outlet;
              var n := r.value.inlet;
              && o == Outlet(fac, cp, id, rows, cols)
              && n.row < rows && n.col < cols
              && (forall a, b :: 0 <= a < rows && 0 <= b < cols && Adjacent(a, b, o) ==> fac[a][b] <= fac[n.row][n.col])
              && (forall a, b :: 0 <= a < rows && 0 <= b < cols && Adjacent(a, b, o) && Before(a, b, n) ==>
                    fac[a][b] < fac[n.row][n.col])
              && fac[n.row][n.col] >= fac[o.row][o.col]
              && Adjacent(n.row, n.col, o)
              && ((forall a, b :: 0 <= a < rows && 0 <= b < cols && Adjacent(a, b, o) ==> fac[a][b] == 0) ==>
                    n == Pixel(0, 0))
              && r.value.inCp == cp[n.row][n.col]
              && (Drains(fac, cp, id, rows, cols) && n == o ==> r.value.inCp == id)
  {
    if rows == 0 || cols == 0 then Err(EmptyWindow)
    else
      var fac := ClampNegative(rawFac, rows, cols);
      var o := Outlet(fac, cp, id, rows, cols);
      var n := Inlet(fac, o, rows, cols);
      InletNextToOutlet(fac, cp, id, rows, cols);
      Ok(Located(o, n, cp[n.row][n.col]))
  }

  /** The same, with the window as written: the same outlet, and the inlet
      the first row-major maximum of the accumulation inside the window
      the slices select (pixel (0, 0) when that window is empty or carries
      no flow). */
  function LocateAsWritten(rawFac: Grid, cp: Grid, id: int, rows: nat, cols: nat): (r: Result<Located>)
    requires Rect(rawFac, rows, cols) && Rect(cp, rows, cols)
    ensures r.Err? <==> rows == 0 || cols == 0
    ensures r.Ok? ==>
              var fac := ClampNegative(rawFac, rows, cols);
              var o := r.value.outlet;
              var n := r.value.inlet;
              var w := WindowAsWritten(o, rows, cols);
              && o == Outlet(fac, cp, id, rows, cols)
              && n.row < rows && n.col < cols
              && (forall a, b :: 0 <= a < rows && 0 <= b < cols && InWindow(w, a, b) ==>
                    fac[a][b] <= Windowed(fac, w, rows, cols)[n.row][n.col])
              && (forall a, b :: 0 <= a < rows && 0 <= b < cols && InWindow(w, a, b) && Before(a, b, n) ==>
                    fac[a][b] < Windowed(fac, w, rows, cols)[n.row][n.col])
              && ((forall a, b :: 0 <= a < rows && 0 <= b < cols && InWindow(w, a, b) ==> fac[a][b] == 0) ==>
                    n == Pixel(0, 0))
              && r.value.inCp == cp[n.row][n.col]
  {
    if rows == 0 || cols == 0 then Err(EmptyWindow)
    else
      var fac := ClampNegative(rawFac, rows, cols);
      var o := GridArgMax(Masked(fac, cp, id, rows, cols), rows, cols);
      var z := Windowed(fac, WindowAsWritten(o, rows, cols), rows, cols);
      var n := GridArgMax(z, rows, cols);
      ZeroMaxAtOrigin(z, rows, cols);
      Ok(Located(o, n, cp[n.row][n.col]))
  }

  /** Away from the window's first row and first column the slices as
      written select the clipped neighbourhood, so both readings agree. */
  lemma AsWrittenAgreesOffEdge(rawFac: Grid, cp: Grid, id: int, rows: nat, cols: nat)
    requires Rect(rawFac, rows, cols) && Rect(cp, rows, cols) && rows > 0 && cols > 0
    requires var o := Locate(rawFac, cp, id, rows, cols).value.outlet; o.row > 0 && o.col > 0
    ensures LocateAsWritten(rawFac, cp, id, rows, cols) == Locate(rawFac, cp, id, rows, cols)
  {
  }

  /** As written, an outlet on the first row of a window of three or more
      rows gets the slice `-1:2`, which numpy reads as `rows-1:2`: the
      window is empty, the windowed accumulation is all zero, and the inlet
      falls on pixel (0, 0) wherever the flow goes. */
  lemma AsWrittenTopRowInlet(rawFac: Grid, cp: Grid, id: int, rows: nat, cols: nat)
    requires Rect(rawFac, rows, cols) && Rect(cp, rows, cols)
    requires rows >= 3 && cols > 0
    requires LocateAsWritten(rawFac, cp, id, rows, cols).value.outlet.row == 0
    ensures LocateAsWritten(rawFac, cp, id, rows, cols).value.inlet == Pixel(0, 0)
    ensures LocateAsWritten(rawFac, cp, id, rows, cols).value.inCp == cp[0][0]
  {
    var fac := ClampNegative(rawFac, rows, cols);
    var o := GridArgMax(Masked(fac, cp, id, rows, cols), rows, cols);
    var w := WindowAsWritten(o, rows, cols);
    assert w.rowLo == rows - 1 && w.rowHi == 2;
    var z := Windowed(fac, w, rows, cols);
    var n := GridArgMax(z, rows, cols);
    assert z[0][0] == 0;
  }

  /** A cell `7` whose only pixel is the window's corner and drains east
      into cell `8`: as written it appears to drain into itself (a second
      basin outlet) ... */
  lemma TopRowCounterexample()
    ensures LocateAsWritten(CornerFac(), CornerCp(), 7, 3, 3) == Ok(Located(Pixel(0, 0), Pixel(0, 0), 7))
  {
    CornerArgMax();
    AsWrittenTopRowInlet(CornerFac(), CornerCp(), 7, 3, 3);
  }

  /** The first maximum of cell `7`'s masked accumulation is the corner. */
  lemma CornerArgMax()
    ensures GridArgMax(Masked(ClampNegative(CornerFac(), 3, 3), CornerCp(), 7, 3, 3), 3, 3) == Pixel(0, 0)
  {
    var cp := CornerCp();
    var m := Masked(ClampNegative(CornerFac(), 3, 3), cp, 7, 3, 3);
    var o := GridArgMax(m, 3, 3);
    assert m[0][0] == 3;
    assert cp[0][1] == 8 && cp[0][2] == 8 && cp[1] == [8, 8, 8] && cp[2] == [8, 8, 8];
    assert m[o.row][o.col] >= 3;
  }

  /** ... while with the clipped neighbourhood it drains into `8`. */
  lemma TopRowCorrected(raw: Grid, cp: Grid)
    requires raw == CornerFac() && cp == CornerCp()
    ensures Locate(raw, cp, 7, 3, 3).value.inCp == 8
  {
    CornerOutlet(raw, cp);
    CornerPeak(raw);
    var r := Locate(raw, cp, 7, 3, 3).value;
    assert Adjacent(0, 1, r.outlet);
    assert r.inlet == Pixel(0, 1);
    assert cp[0][1] == 8;
  }

  lemma CornerOutlet(raw: Grid, cp: Grid)
    requires raw == CornerFac() && cp == CornerCp()
    ensures Locate(raw, cp, 7, 3, 3).value.outlet == Pixel(0, 0)
  {
    var fac := ClampNegative(raw, 3, 3);
    assert Drains(fac, cp, 7, 3, 3) by {
      assert cp[0][0] == 7 && fac[0][0] > 0;
    }
    var o := Outlet(fac, cp, 7, 3, 3);
    assert o == Pixel(0, 0) by {
      assert cp[o.row][o.col] == 7;
      assert cp[0][1] == 8 && cp[0][2] == 8 && cp[1] == [8, 8, 8] && cp[2] == [8, 8, 8];
    }
  }

  /** Pixel (0, 1) alone holds the corner window's largest accumulation. */
  lemma CornerPeak(raw: Grid)
    requires raw == CornerFac()
    ensures ClampNegative(raw, 3, 3)[0][1] == 5
    ensures forall a, b :: 0 <= a < 3 && 0 <= b < 3 && !(a == 0 && b == 1) ==> ClampNegative(raw, 3, 3)[a][b] < 5
  {
    var fac := ClampNegative(raw, 3, 3);
    forall a, b | 0 <= a < 3 && 0 <= b < 3 && !(a == 0 && b == 1)
      ensures fac[a][b] < 5
    {
      assert a == 0 || a == 1 || a == 2;
      assert b == 0 || b == 1 || b == 2;
    }
  }

  function CornerFac(): (g: Grid)
    ensures Rect(g, 3, 3)
  {
    [[3, 5, 0], [0, 0, 0], [0, 0, 0]]
  }

  function CornerCp(): (g: Grid)
    ensures Rect(g, 3, 3)
  {
    [[7, 8, 8], [8, 8, 8], [8, 8, 8]]
  }
}

=== FILE: renumber.dfy ===
/** Renumbering the fishnets (`renumber_fishnets`): every partial cell
    takes the new id of its routing-table row, the cells are sorted by it,
    and the control elements are numbered `1..k` in the order in which the
    sorted cells first mention them; control elements no cell mentions are
    dropped. */
module Renumber {
  import opened Common
  import opened RoutingTable

  /** A row of the partial-cell table: its id and its control element. */
  datatype CpRow = CpRow(cpId: int, ceId: int)

  /** A renumbered partial cell. */
  datatype CpOut = CpOut(cpId: int, ceId: int, newCp: nat, newCe: nat)

  /** A renumbered control element. */
  datatype CeOut = CeOut(ceId: int, newCe: nat)

  datatype Renumbered = Renumbered(cps: seq<CpOut>, ces: seq<CeOut>)

  // ----- new partial-cell ids -----

  /** The new id that the first `n` table rows give to old id `id`. Row
      `i` overwrites every cell carrying its old id, so the last matching
      row wins; a cell no row matches keeps 0. */
  function Lookup(nodes: seq<Node>, n: nat, id: int): (r: nat)
    requires n <= |nodes|
    ensures r != 0 ==> exists i :: 0 <= i < n && nodes[i].oldId == id && nodes[i].newId == r
    ensures r == 0 && (exists i :: 0 <= i < n && nodes[i].oldId == id) ==>
              exists i :: 0 <= i < n && nodes[i].oldId == id && nodes[i].newId == 0
  {
    if n == 0 then 0
    else if nodes[n - 1].oldId == id then nodes[n - 1].newId
    else Lookup(nodes, n - 1, id)
  }

  /** The new id of every cell. The loop reads table row `i` for every
      cell position `i`, so a table shorter than the cell table fails. */
  function NewCpIds(cps: seq<CpRow>, nodes: seq<Node>): (r: Result<seq<nat>>)
    ensures r.Err? <==> |nodes| < |cps|
    ensures r.Ok? ==> |r.value| == |cps|
    ensures r.Ok? ==> forall j :: 0 <= j < |cps| && r.value[j] != 0 ==>
              exists i :: 0 <= i < |cps| && nodes[i].oldId == cps[j].cpId && nodes[i].newId == r.value[j]
  {
    if |nodes| < |cps| then Err(TableTooShort)
    else Ok(seq(|cps|, j requires 0 <= j < |cps| => Lookup(nodes, |cps|, cps[j].cpId)))
  }

  /** No two table rows carry the same old id. */
  predicate DistinctOld(nodes: seq<Node>) {
    forall a, b :: 0 <= a < b < |nodes| ==> nodes[a].oldId != nodes[b].oldId
  }

  /** With the table the walk builds, a cell's new id names the table row
      holding its old id, and it is 0 exactly when no row consulted holds
      it. */
  lemma NewCpNames(cps: seq<CpRow>, nodes: seq<Node>, j: nat)
    requires Numbered(nodes) && DistinctOld(nodes) && |cps| <= |nodes| && j < |cps|
    ensures var id := NewCpIds(cps, nodes).value[j];
            && (id != 0 ==> id <= |cps| && nodes[id - 1].oldId == cps[j].cpId)
            && (id == 0 <==> forall i :: 0 <= i < |cps| ==> nodes[i].oldId != cps[j].cpId)
  {
    var id := NewCpIds(cps, nodes).value[j];
    if id != 0 {
      var i :| 0 <= i < |cps| && nodes[i].oldId == cps[j].cpId && nodes[i].newId == id;
    }
  }

  /** Two cells share a new id only when they share the old one. */
  lemma NewCpInjective(cps: seq<CpRow>, nodes: seq<Node>, a: nat, b: nat)
    requires Numbered(nodes) && DistinctOld(nodes) && |cps| <= |nodes| && a < |cps| && b < |cps|
    requires NewCpIds(cps, nodes).value[a] == NewCpIds(cps, nodes).value[b] != 0
    ensures cps[a].cpId == cps[b].cpId
  {
    NewCpNames(cps, nodes, a);
    NewCpNames(cps, nodes, b);
  }

  /** When the table is as long as the cell table and every table row is
      a cell, every new id `1..m` is given to some cell. */
  lemma NewCpOnto(cps: seq<CpRow>, nodes: seq<Node>, v: nat)
    requires Numbered(nodes) && DistinctOld(nodes) && |cps| == |nodes| && 1 <= v <= |nodes|
    requires forall i :: 0 <= i < |nodes| ==> exists j :: 0 <= j < |cps| && cps[j].cpId == nodes[i].oldId
    ensures exists j :: 0 <= j < |cps| && NewCpIds(cps, nodes).value[j] == v
  {
    var j :| 0 <= j < |cps| && cps[j].cpId == nodes[v - 1].oldId;
    NewCpNames(cps, nodes, j);
    var id := NewCpIds(cps, nodes).value[j];
    assert id != 0;
    assert nodes[id - 1].oldId == nodes[v - 1].oldId;
  }

  // ----- sorting -----

  predicate SortedBy<T>(key: T -> nat, s: seq<T>) {
    forall a, b :: 0 <= a < b < |s| ==> key(s[a]) <= key(s[b])
  }

  /** Insert `x` after every element whose key is not larger. */
  function InsertBy<T>(key: T -> nat, x: T, s: seq<T>): (r: seq<T>)
    requires SortedBy(key, s)
    ensures |r| == |s| + 1
    ensures SortedBy(key, r) && multiset(r) == multiset(s) + multiset{x}
  {
    if s == [] || key(x) < key(s[0]) then
      InsertFront(key, x, s);
      [x] + s
    else
      var rest := InsertBy(key, x, s[1..]);
      assert s == [s[0]] + s[1..];
      InsertAfter(key, s[0], x, s[1..], rest);
      [s[0]] + rest
  }

  lemma InsertFront<T>(key: T -> nat, x: T, s: seq<T>)
    requires SortedBy(key, s) && (s == [] || key(x) < key(s[0]))
    ensures SortedBy(key, [x] + s)
  {
    forall a, b | 0 <= a < b < |[x] + s|
      ensures key(([x] + s)[a]) <= key(([x] + s)[b])
    {
      assert ([x] + s)[b] == s[b - 1];
      if a > 0 {
        assert ([x] + s)[a] == s[a - 1];
      }
    }
  }

  lemma InsertAfter<T>(key: T -> nat, y: T, x: T, s: seq<T>, rest: seq<T>)
    requires SortedBy(key, [y] + s) && key(y) <= key(x)
    requires SortedBy(key, rest) && multiset(rest) == multiset(s) + multiset{x}
    ensures SortedBy(key, [y] + rest)
  {
    forall t | 0 <= t < |rest|
      ensures key(y) <= key(rest[t])
    {
      var e := rest[t];
      assert e in multiset(rest);
      if e != x {
        assert e in multiset(s);
        assert e in s;
        var u :| 0 <= u < |s| && s[u] == e;
        assert ([y] + s)[0] == y && ([y] + s)[u + 1] == e;
      }
    }
    forall a, b | 0 <= a < b < |[y] + rest|
      ensures key(([y] + rest)[a]) <= key(([y] + rest)[b])
    {
      assert ([y] + rest)[b] == rest[b - 1];
      if a > 0 {
        assert ([y] + rest)[a] == rest[a - 1];
      }
    }
  }

  /** `sort_values`: a permutation of `s` in key order. */
  function SortBy<T>(key: T -> nat, s: seq<T>): (r: seq<T>)
    ensures |r| == |s|
    ensures SortedBy(key, r) && multiset(r) == multiset(s)
  {
    if s == [] then []
    else
      assert s == s[..|s| - 1] + [s[|s| - 1]];
      InsertBy(key, s[|s| - 1], SortBy(key, s[..|s| - 1]))
  }

  // ----- new control-element ids -----

  /** The position of the first `c` in `s`. */
  function FirstIndex(s: seq<int>, c: int): (r: nat)
    requires c in s
    ensures r < |s| && s[r] == c && forall t :: 0 <= t < r ==> s[t] != c
  {
    if s[0] == c then 0 else 1 + FirstIndex(s[1..], c)
  }

  predicate Distinct(s: seq<int>) {
    forall a, b :: 0 <= a < b < |s| ==> s[a] != s[b]
  }

  /** `CE_track_list`: the values of `s` without repeats, in the order in
      which they first appear. */
  function FirstAppearance(s: seq<int>): (r: seq<int>)
    ensures Distinct(r)
    ensures forall c :: c in r <==> c in s
    ensures forall a, b :: 0 <= a < b < |r| ==> FirstIndex(s, r[a]) < FirstIndex(s, r[b])
  {
    if s == [] then []
    else
      var n := |s| - 1;
      var r := FirstAppearance(s[..n]);
      assert s == s[..n] + [s[n]];
      forall a | 0 <= a < |r|
        ensures r[a] in s && FirstIndex(s, r[a]) == FirstIndex(s[..n], r[a])
      {
        assert r[a] in s[..n];
        FirstIndexPrefix(s, n, r[a]);
      }
      if s[n] in r then
        r
      else
        assert FirstIndex(s, s[n]) == n;
        r + [s[n]]
  }

  lemma FirstIndexPrefix(s: seq<int>, n: nat, c: int)
    requires n <= |s| && c in s[..n]
    ensures FirstIndex(s, c) == FirstIndex(s[..n], c)
  {
    var i := FirstIndex(s[..n], c);
    assert s[i] == c;
  }

  /** The new id of control element `c`: its position in the order plus
      one, 0 when no cell mentions it. */
  function NewCe(order: seq<int>, c: int): (r: nat)
    ensures r <= |order|
    ensures r == 0 <==> c !in order
    ensures r != 0 ==> order[r - 1] == c
  {
    if c in order then FirstIndex(order, c) + 1 else 0
  }

  function CpKey(r: CpOut): nat { r.newCp }

  function CeKey(r: CeOut): nat { r.newCe }

  function Ces(rows: seq<CpOut>): (s: seq<int>)
    ensures |s| == |rows| && forall k :: 0 <= k < |rows| ==> s[k] == rows[k].ceId
  {
    seq(|rows|, k requires 0 <= k < |rows| => rows[k].ceId)
  }

  /** Every cell with its new id; the control-element id is still 0. */
  function Stamp(cps: seq<CpRow>, ids: seq<nat>): (r: seq<CpOut>)
    requires |ids| == |cps|
    ensures |r| == |cps| && forall j :: 0 <= j < |cps| ==> r[j] == CpOut(cps[j].cpId, cps[j].ceId, ids[j], 0)
  {
    seq(|cps|, j requires 0 <= j < |cps| => CpOut(cps[j].cpId, cps[j].ceId, ids[j], 0))
  }

  function WithCe(rows: seq<CpOut>, order: seq<int>): (r: seq<CpOut>)
    ensures |r| == |rows|
    ensures forall k :: 0 <= k < |rows| ==> r[k] == rows[k].(newCe := NewCe(order, rows[k].ceId))
  {
    seq(|rows|, k requires 0 <= k < |rows| => rows[k].(newCe := NewCe(order, rows[k].ceId)))
  }

  /** The control elements some cell mentions, with their new ids. */
  function Kept(ces: seq<int>, order: seq<int>): (r: seq<CeOut>)
    ensures forall e :: e in r <==> e.ceId in ces && e.ceId in order && e.newCe == NewCe(order, e.ceId)
  {
    if ces == [] then []
    else
      var rest := Kept(ces[1..], order);
      assert forall c :: c in ces <==> c == ces[0] || c in ces[1..];
      if ces[0] in order then [CeOut(ces[0], NewCe(order, ces[0]))] + rest else rest
  }

  predicate Used(out: seq<CpOut>, n: nat) {
    exists a :: 0 <= a < |out| && out[a].newCe == n
  }

  /** The number of control elements the cells mention. */
  function CeCount(rows: seq<CpOut>): nat {
    |FirstAppearance(Ces(rows))|
  }

  /** The second loop of `renumber_fishnets`: every cell, in table order,
      takes the new id of its control element. The ids are `1..k`, one per
      control element, and they follow the order in which the cells first
      mention the control elements. */
  function NumberCes(rows: seq<CpOut>): (out: seq<CpOut>)
    ensures |out| == |rows|
    ensures forall a :: 0 <= a < |rows| ==> out[a] == rows[a].(newCe := out[a].newCe)
    ensures forall a :: 0 <= a < |rows| ==> 1 <= out[a].newCe <= CeCount(rows)
    ensures forall n :: 1 <= n <= CeCount(rows) ==> Used(out, n)
    ensures forall a, b :: 0 <= a < |rows| && 0 <= b < |rows| ==>
              (out[a].newCe == out[b].newCe <==> rows[a].ceId == rows[b].ceId)
    ensures forall a, b :: 0 <= a < |rows| && 0 <= b < |rows| ==>
              (out[a].newCe < out[b].newCe <==> FirstIndex(Ces(rows), rows[a].ceId) < FirstIndex(Ces(rows), rows[b].ceId))
  {
    var order := FirstAppearance(Ces(rows));
    var out := WithCe(rows, order);
    NumbersInRange(rows, order, out);
    NumbersUsed(rows, order, out);
    NumbersShared(rows, order, out);
    NumbersOrdered(rows, order, out);
    out
  }

  lemma NumbersInRange(rows: seq<CpOut>, order: seq<int>, out: seq<CpOut>)
    requires order == FirstAppearance(Ces(rows)) && out == WithCe(rows, order)
    ensures forall a :: 0 <= a < |rows| ==> 1 <= out[a].newCe <= |order|
  {
    forall a | 0 <= a < |rows|
      ensures 1 <= out[a].newCe <= |order|
    {
      assert Ces(rows)[a] in Ces(rows);
    }
  }

  lemma NumbersUsed(rows: seq<CpOut>, order: seq<int>, out: seq<CpOut>)
    requires order == FirstAppearance(Ces(rows)) && out == WithCe(rows, order)
    ensures forall n :: 1 <= n <= |order| ==> Used(out, n)
  {
    forall n | 1 <= n <= |order|
      ensures Used(out, n)
    {
      var c := order[n - 1];
      assert c in order;
      var a := FirstIndex(Ces(rows), c);
      assert out[a].newCe == NewCe(order, c);
      assert FirstIndex(order, c) == n - 1;
    }
  }

  lemma NumbersShared(rows: seq<CpOut>, order: seq<int>, out: seq<CpOut>)
    requires order == FirstAppearance(Ces(rows)) && out == WithCe(rows, order)
    ensures forall a, b :: 0 <= a < |rows| && 0 <= b < |rows| ==>
              (out[a].newCe == out[b].newCe <==> rows[a].ceId == rows[b].ceId)
  {
    forall a, b | 0 <= a < |rows| && 0 <= b < |rows| && out[a].newCe == out[b].newCe
      ensures rows[a].ceId == rows[b].ceId
    {
      assert Ces(rows)[a] in Ces(rows) && Ces(rows)[b] in Ces(rows);
    }
  }

  lemma NumbersOrdered(rows: seq<CpOut>, order: seq<int>, out: seq<CpOut>)
    requires order == FirstAppearance(Ces(rows)) && out == WithCe(rows, order)
    ensures forall a, b :: 0 <= a < |rows| && 0 <= b < |rows| ==>
              (out[a].newCe < out[b].newCe <==> FirstIndex(Ces(rows), rows[a].ceId) < FirstIndex(Ces(rows), rows[b].ceId))
  {
    var s := Ces(rows);
    forall a, b | 0 <= a < |rows| && 0 <= b < |rows|
      ensures out[a].newCe < out[b].newCe <==> FirstIndex(s, rows[a].ceId) < FirstIndex(s, rows[b].ceId)
    {
      assert s[a] in s && s[b] in s;
      var x := NewCe(order, s[a]);
      var y := NewCe(order, s[b]);
      if x < y {
        assert FirstIndex(s, order[x - 1]) < FirstIndex(s, order[y - 1]);
      } else if y < x {
        assert FirstIndex(s, order[y - 1]) < FirstIndex(s, order[x - 1]);
      }
    }
  }

  /** `renumber_fishnets` on the cell table `cps`, the control-element
      table `ces` and the routing table `nodes`. */
  function RenumberFishnets(cps: seq<CpRow>, ces: seq<int>, nodes: seq<Node>): (r: Result<Renumbered>)
    ensures r.Err? <==> |nodes| < |cps|
    ensures r.Ok? ==> |r.value.cps| == |cps| && SortedBy(CpKey, r.value.cps) && SortedBy(CeKey, r.value.ces)
  {
    match NewCpIds(cps, nodes)
    case Err(f) => Err(f)
    case Ok(ids) =>
      var sorted := SortBy(CpKey, Stamp(cps, ids));
      var out := NumberCes(sorted);
      NumberCesKeepsCells(sorted);
      Ok(Renumbered(out, SortBy(CeKey, Kept(ces, FirstAppearance(Ces(sorted))))))
  }

  function Strip(rows: seq<CpOut>): (r: seq<CpOut>)
    ensures |r| == |rows| && forall k :: 0 <= k < |rows| ==> r[k] == rows[k].(newCe := 0)
  {
    seq(|rows|, k requires 0 <= k < |rows| => rows[k].(newCe := 0))
  }

  /** Numbering the control elements changes nothing but their ids. */
  lemma NumberCesKeepsCells(rows: seq<CpOut>)
    ensures Strip(NumberCes(rows)) == Strip(rows)
    ensures SortedBy(CpKey, rows) ==> SortedBy(CpKey, NumberCes(rows))
  {
    var out := NumberCes(rows);
    assert forall k :: 0 <= k < |rows| ==> CpKey(out[k]) == CpKey(rows[k]);
  }

  // ----- properties of the renumbered tables -----

  /** The renumbered cells are the input cells, each with its new id,
      in order of new id. */
  lemma RenumberedCells(cps: seq<CpRow>, ces: seq<int>, nodes: seq<Node>)
    requires |cps| <= |nodes|
    ensures var out := RenumberFishnets(cps, ces, nodes).value.cps;
            multiset(Strip(out)) == multiset(Stamp(cps, NewCpIds(cps, nodes).value))
  {
    var stamped := Stamp(cps, NewCpIds(cps, nodes).value);
    var sorted := SortBy(CpKey, stamped);
    NumberCesKeepsCells(sorted);
    StripUnnumbered(stamped, sorted);
  }

  lemma StripUnnumbered(stamped: seq<CpOut>, sorted: seq<CpOut>)
    requires multiset(sorted) == multiset(stamped)
    requires forall k :: 0 <= k < |stamped| ==> stamped[k].newCe == 0
    ensures Strip(sorted) == sorted
  {
    forall k | 0 <= k < |sorted|
      ensures sorted[k].newCe == 0
    {
      assert sorted[k] in multiset(stamped);
      assert sorted[k] in stamped;
    }
  }

  /** The control-element ids of `out` are `1..k`, one per control element
      its cells mention: two cells share an id exactly when they share a
      control element, and the ids follow the order in which the cells
      first mention their control elements. */
  predicate CesNumbered(out: seq<CpOut>) {
    && (forall a :: 0 <= a < |out| ==> 1 <= out[a].newCe <= CeCount(out))
    && (forall n :: 1 <= n <= CeCount(out) ==> Used(out, n))
    && (forall a, b :: 0 <= a < |out| && 0 <= b < |out| ==>
          (out[a].newCe == out[b].newCe <==> out[a].ceId == out[b].ceId))
    && (forall a, b :: 0 <= a < |out| && 0 <= b < |out| ==>
          (out[a].newCe < out[b].newCe <==> FirstIndex(Ces(out), out[a].ceId) < FirstIndex(Ces(out), out[b].ceId)))
  }

  /** Numbering leaves the control elements in place, so what `NumberCes`
      promises about its input holds of its output read on its own. */
  lemma NumberCesNumbers(rows: seq<CpOut>)
    ensures CesNumbered(NumberCes(rows))
  {
    var out := NumberCes(rows);
    assert Ces(out) == Ces(rows);
  }

  /** The renumbered cells, sorted by new id, have their control elements
      numbered `1..k` in order of first mention. */
  lemma RenumberedCes(cps: seq<CpRow>, ces: seq<int>, nodes: seq<Node>)
    requires |cps| <= |nodes|
    ensures CesNumbered(RenumberFishnets(cps, ces, nodes).value.cps)
  {
    var sorted := SortBy(CpKey, Stamp(cps, NewCpIds(cps, nodes).value));
    assert RenumberFishnets(cps, ces, nodes).value.cps == NumberCes(sorted);
    NumberCesNumbers(sorted);
  }

  /** The renumbered control-element table keeps exactly the control
      elements some cell mentions, each with the id its cells carry. */
  lemma KeptCes(cps: seq<CpRow>, ces: seq<int>, nodes: seq<Node>, e: CeOut)
    requires |cps| <= |nodes|
    ensures var r := RenumberFishnets(cps, ces, nodes).value;
            e in r.ces <==>
              e.ceId in ces && e.newCe != 0
              && exists a :: 0 <= a < |r.cps| && r.cps[a].ceId == e.ceId && r.cps[a].newCe == e.newCe
  {
    var sorted := SortBy(CpKey, Stamp(cps, NewCpIds(cps, nodes).value));
    var s := Ces(sorted);
    var order := FirstAppearance(s);
    var r := RenumberFishnets(cps, ces, nodes).value;
    var kept := Kept(ces, order);
    assert r.ces == SortBy(CeKey, kept);
    assert r.cps == WithCe(sorted, order);
    assert e in r.ces <==> e in multiset(kept);
    if e.ceId in order {
      var a := FirstIndex(s, e.ceId);
      assert r.cps[a].ceId == e.ceId && r.cps[a].newCe == NewCe(order, e.ceId);
    }
  }
}

=== FILE: routes.dfy ===
/** Downstream pointers (`get_downstream_CP`) and the path of every cell
    to the basin outlet (`outlet_routes`). Cells are named by their new
    ids `1..m`; a sequence indexed by cell holds the value of cell `v` at
    position `v - 1`. */
module Routes {
  import opened Common
  import opened RoutingTable
  import Extrema

  /** The first table row whose upstream list holds `v`:
      `np.where(list_upstream_array == v)[0][0]`. */
  function FindParent(nodes: seq<Node>, v: nat): (r: Option<nat>)
    ensures r.None? <==> forall p :: 0 <= p < |nodes| ==> v !in nodes[p].upstream
    ensures r.Some? ==> r.value < |nodes| && v in nodes[r.value].upstream
    ensures r.Some? ==> forall p :: 0 <= p < r.value ==> v !in nodes[p].upstream
  {
    if |nodes| == 0 then None
    else if v in nodes[0].upstream then Some(0)
    else
      match FindParent(nodes[1..], v)
      case None => None
      case Some(p) =>
        assert nodes[1..][p] == nodes[p + 1];
        Some(p + 1)
  }

  /** The downstream cell of the row with new id `v`: the new id of the
      first row listing `v` upstream, or 0. */
  function Pointer(nodes: seq<Node>, v: nat): (d: nat)
    requires Numbered(nodes)
    ensures d == 0 <==> forall p :: 0 <= p < |nodes| ==> v !in nodes[p].upstream
    ensures d != 0 ==> d <= |nodes| && v in nodes[d - 1].upstream
    ensures d != 0 ==> forall p :: 0 <= p < d - 1 ==> v !in nodes[p].upstream
  {
    match FindParent(nodes, v)
    case None => 0
    case Some(p) => nodes[p].newId
  }

  /** The downstream cell of every row, 0 for a row no list mentions.
      The width of the padded upstream array is the longest upstream list;
      when every list is empty `max` of an empty list raises. */
  function Downstream(nodes: seq<Node>): (r: Result<seq<nat>>)
    requires Numbered(nodes)
    ensures r.Err? <==> forall p :: 0 <= p < |nodes| ==> nodes[p].upstream == []
    ensures r.Ok? ==> |r.value| == |nodes| && forall k :: 0 <= k < |nodes| ==> r.value[k] == Pointer(nodes, nodes[k].newId)
  {
    if forall p :: 0 <= p < |nodes| ==> nodes[p].upstream == [] then Err(NoUpstreamCells)
    else Ok(seq(|nodes|, k requires 0 <= k < |nodes| => Pointer(nodes, nodes[k].newId)))
  }

  /** Every cell but the outlet points to a smaller id; the outlet (cell 1)
      points nowhere. */
  predicate PointsDown(down: seq<nat>) {
    |down| >= 1 && down[0] == 0 && forall k :: 1 <= k < |down| ==> 1 <= down[k] <= k
  }

  /** In breadth-first order no id is upstream of two rows. */
  lemma ParentUnique(nodes: seq<Node>, p: nat, q: nat, v: nat)
    requires Ordered(nodes) && p < |nodes| && q < |nodes|
    requires v in nodes[p].upstream && v in nodes[q].upstream
    ensures p == q
  {
    var a :| 0 <= a < |nodes[p].upstream| && nodes[p].upstream[a] == v;
    var b :| 0 <= b < |nodes[q].upstream| && nodes[q].upstream[b] == v;
  }

  lemma PointerNames(nodes: seq<Node>, p: nat, v: nat)
    requires Numbered(nodes) && Ordered(nodes) && p < |nodes| && v in nodes[p].upstream
    ensures Pointer(nodes, v) == p + 1
  {
    var d := Pointer(nodes, v);
    ParentUnique(nodes, d - 1, p, v);
  }

  /** The pointer of a row names exactly the row listing it upstream. */
  lemma DownstreamInvertsUpstream(nodes: seq<Node>)
    requires |nodes| >= 2 && Numbered(nodes) && Ordered(nodes) && HasParent(nodes, |nodes|)
    ensures Downstream(nodes).Ok?
    ensures forall k, p :: 0 <= k < |nodes| && 0 <= p < |nodes| ==>
              (nodes[k].newId in nodes[p].upstream <==> Downstream(nodes).value[k] == p + 1)
  {
    DownstreamOk(nodes);
    var down := Downstream(nodes).value;
    forall k, p | 0 <= k < |nodes| && 0 <= p < |nodes|
      ensures nodes[k].newId in nodes[p].upstream <==> down[k] == p + 1
    {
      PointerIff(nodes, k, p);
    }
  }

  /** The table the walk builds gives the outlet no pointer and every
      other cell a pointer to a strictly smaller id. */
  lemma DownstreamPointsDown(entries: seq<Entry>, nodes: seq<Node>)
    requires |nodes| >= 2 && Numbered(nodes) && UpstreamDrain(entries, nodes)
    requires Ordered(nodes) && HasParent(nodes, |nodes|)
    ensures Downstream(nodes).Ok? && PointsDown(Downstream(nodes).value)
  {
    DownstreamOk(nodes);
    var down := Downstream(nodes).value;
    RootPointer(entries, nodes);
    forall k | 1 <= k < |nodes|
      ensures 1 <= down[k] <= k
    {
      PointerSmaller(entries, nodes, k);
    }
  }

  lemma DownstreamOk(nodes: seq<Node>)
    requires |nodes| >= 2 && Numbered(nodes) && HasParent(nodes, |nodes|)
    ensures Downstream(nodes).Ok?
  {
    var p1 :| 0 <= p1 < |nodes| && nodes[1].newId in nodes[p1].upstream;
    assert nodes[p1].upstream != [];
  }

  lemma PointerIff(nodes: seq<Node>, k: nat, p: nat)
    requires Numbered(nodes) && Ordered(nodes) && k < |nodes| && p < |nodes|
    ensures nodes[k].newId in nodes[p].upstream <==> Pointer(nodes, nodes[k].newId) == p + 1
  {
    if nodes[k].newId in nodes[p].upstream {
      PointerNames(nodes, p, nodes[k].newId);
    }
  }

  lemma RootPointer(entries: seq<Entry>, nodes: seq<Node>)
    requires |nodes| >= 1 && Numbered(nodes) && UpstreamDrain(entries, nodes)
    ensures Pointer(nodes, nodes[0].newId) == 0
  {
    forall p | 0 <= p < |nodes|
      ensures nodes[0].newId !in nodes[p].upstream
    {
      RootNotUpstream(entries, nodes, p);
    }
  }

  lemma PointerSmaller(entries: seq<Entry>, nodes: seq<Node>, k: nat)
    requires Numbered(nodes) && UpstreamDrain(entries, nodes)
    requires Ordered(nodes) && HasParent(nodes, |nodes|) && 1 <= k < |nodes|
    ensures 1 <= Pointer(nodes, nodes[k].newId) <= k
  {
    var p :| 0 <= p < |nodes| && nodes[k].newId in nodes[p].upstream;
    PointerNames(nodes, p, nodes[k].newId);
    UpstreamLater(entries, nodes, p);
  }

  /** The upstream ids of row `p` are larger than `p + 1`. */
  lemma UpstreamLater(entries: seq<Entry>, nodes: seq<Node>, p: nat)
    requires UpstreamDrain(entries, nodes) && p < |nodes|
    ensures forall v :: v in nodes[p].upstream ==> p + 1 < v
  {
    assert RowDrains(entries, nodes, p);
    forall v | v in nodes[p].upstream
      ensures p + 1 < v
    {
      var a :| 0 <= a < |nodes[p].upstream| && nodes[p].upstream[a] == v;
    }
  }

  lemma RootNotUpstream(entries: seq<Entry>, nodes: seq<Node>, p: nat)
    requires |nodes| >= 1 && Numbered(nodes) && UpstreamDrain(entries, nodes) && p < |nodes|
    ensures nodes[0].newId !in nodes[p].upstream
  {
    UpstreamLater(entries, nodes, p);
  }

  /** The path from cell `v` to the outlet, both included: the `while
      up != 1` loop of `outlet_routes`. */
  function Route(down: seq<nat>, v: nat): (r: seq<nat>)
    requires PointsDown(down) && 1 <= v <= |down|
    ensures |r| >= 1 && r[0] == v && r[|r| - 1] == 1
    ensures forall t :: 0 <= t < |r| ==> 1 <= r[t] <= v
    ensures |r| <= v
    decreases v
  {
    if v == 1 then [1] else [v] + Route(down, down[v - 1])
  }

  /** A route follows the pointers: each cell before the outlet is
      followed by its downstream cell. */
  lemma {:induction false} RouteFollows(down: seq<nat>, v: nat, t: nat)
    requires PointsDown(down) && 1 <= v <= |down| && t + 1 < |Route(down, v)|
    ensures Route(down, v)[t] != 1 && Route(down, v)[t + 1] == down[Route(down, v)[t] - 1]
    decreases v
  {
    if t > 0 {
      RouteFollows(down, down[v - 1], t - 1);
    }
  }

  /** Ids fall strictly along a route: it visits no cell twice. */
  lemma {:induction false} RouteDecreasing(down: seq<nat>, v: nat)
    requires PointsDown(down) && 1 <= v <= |down|
    ensures forall a, b :: 0 <= a < b < |Route(down, v)| ==> Route(down, v)[a] > Route(down, v)[b]
    decreases v
  {
    if v != 1 {
      RouteDecreasing(down, down[v - 1]);
      var r := Route(down, v);
      var rest := Route(down, down[v - 1]);
      assert r == [v] + rest;
      forall a, b | 0 <= a < b < |r|
        ensures r[a] > r[b]
      {
        if a == 0 {
          assert r[b] == rest[b - 1] <= down[v - 1] < v;
        } else {
          assert r[a] == rest[a - 1] && r[b] == rest[b - 1];
        }
      }
    }
  }

  /** Any chain that starts at `v`, follows the pointers and stops at the
      first visit of the outlet is the route of `v`. */
  lemma {:induction false} RouteUnique(down: seq<nat>, v: nat, s: seq<nat>)
    requires PointsDown(down) && 1 <= v <= |down|
    requires |s| >= 1 && s[0] == v && s[|s| - 1] == 1
    requires forall t :: 0 <= t < |s| - 1 ==> s[t] != 1 && 1 <= s[t] <= |down| && s[t + 1] == down[s[t] - 1]
    ensures s == Route(down, v)
    decreases |s|
  {
    if v != 1 {
      assert |s| > 1;
      RouteUnique(down, down[v - 1], s[1..]);
    }
  }

  /** A cell on the route of `w` has, as its own route, the rest of `w`'s. */
  lemma {:induction false} RouteSuffix(down: seq<nat>, w: nat, t: nat)
    requires PointsDown(down) && 1 <= w <= |down| && t < |Route(down, w)|
    ensures Route(down, w)[t..] == Route(down, Route(down, w)[t])
    decreases w
  {
    if t > 0 {
      RouteSuffix(down, down[w - 1], t - 1);
      assert Route(down, w)[t..] == Route(down, down[w - 1])[t - 1..];
    }
  }

  /** `s` followed by zeros up to `width`. */
  function Pad(s: seq<nat>, width: nat): (r: seq<nat>)
    requires |s| <= width
    ensures |r| == width && r[..|s|] == s
    ensures forall t :: |s| <= t < width ==> r[t] == 0
  {
    s + seq(width - |s|, _ => 0)
  }

  /** The number of cells on each route: `lists_len` of `outlet_routes`.
      Cell `k + 1` lies between one and `k + 1` cells from the outlet. */
  function Depths(down: seq<nat>): (d: seq<int>)
    requires PointsDown(down)
    ensures |d| == |down| && forall k :: 0 <= k < |down| ==> d[k] == |Route(down, k + 1)|
    ensures forall k :: 0 <= k < |down| ==> 1 <= d[k] <= k + 1
  {
    seq(|down|, k requires 0 <= k < |down| => |Route(down, k + 1)|)
  }

  /** The width of the routes array: the longest route. */
  function Width(down: seq<nat>): (w: nat)
    requires PointsDown(down)
    ensures forall k :: 0 <= k < |down| ==> Depths(down)[k] <= w
    ensures exists k :: 0 <= k < |down| && Depths(down)[k] == w
  {
    var m := Extrema.Max(Depths(down));
    assert Depths(down)[0] >= 1;
    m
  }

  /** Row `k` of the routes array: the route of cell `k + 1` padded with
      zeros to `width`. */
  function RouteRow(down: seq<nat>, k: nat, width: nat): (r: seq<nat>)
    requires PointsDown(down) && k < |down| && Depths(down)[k] <= width
    ensures |r| == width
    ensures r[0] == k + 1 && r[Depths(down)[k] - 1] == 1
    ensures forall t :: 0 <= t < Depths(down)[k] ==> r[t] != 0
    ensures forall t :: Depths(down)[k] <= t < width ==> r[t] == 0
  {
    Pad(Route(down, k + 1), width)
  }

  /** The array of `outlet_routes`. */
  function OutletRoutes(down: seq<nat>): (routes: seq<seq<nat>>)
    requires PointsDown(down)
    ensures |routes| == |down|
    ensures forall k :: 0 <= k < |down| ==> routes[k] == RouteRow(down, k, Width(down))
  {
    var width := Width(down);
    seq(|down|, k requires 0 <= k < |down| => RouteRow(down, k, width))
  }

  /** A nonzero entry of row `k` of the routes array is a cell on the route
      of cell `k + 1`. */
  lemma RoutesRow(down: seq<nat>, k: nat, x: nat)
    requires PointsDown(down) && k < |down|
    ensures x != 0 && x in OutletRoutes(down)[k] <==> x in Route(down, k + 1)
  {
    var route := Route(down, k + 1);
    assert Depths(down)[k] == |route| <= Width(down);
    var zeros := seq(Width(down) - |route|, _ => 0);
    assert OutletRoutes(down)[k] == route + zeros;
    assert x in route + zeros <==> x in route || x in zeros;
    assert x in zeros ==> x == 0;
    assert 0 !in route;
  }

  /** `routes` has one row per cell, and the nonzero entries of row `k`
      are the cells on the route of cell `k + 1`. */
  ghost predicate RoutesOf(down: seq<nat>, routes: seq<seq<nat>>)
    requires PointsDown(down)
  {
    |routes| == |down|
    && forall k, x :: 0 <= k < |down| ==> (x != 0 && x in routes[k] <==> x in Route(down, k + 1))
  }

  /** The array `outlet_routes` builds holds the routes of the cells. */
  lemma OutletRoutesOf(down: seq<nat>)
    requires PointsDown(down)
    ensures RoutesOf(down, OutletRoutes(down))
  {
    forall k, x | 0 <= k < |down|
      ensures x != 0 && x in OutletRoutes(down)[k] <==> x in Route(down, k + 1)
    {
      RoutesRow(down, k, x);
    }
  }
}

=== FILE: routing.dfy ===
/** The routing table (the second half of `routing_table`): starting from
    the basin outlet, a breadth-first walk over "cell `a` drains into cell
    `b`" that gives every reached partial cell a new id, in the order the
    walk meets it, and records each cell's upstream cells. */
module RoutingTable {
  import opened Common

  /** The value written over `inCPid` once a row has been placed in the
      table, so that no later search finds it again. */
  const Tracked: int := -99999

  /** One row of the routing data: a partial cell and the cell its inlet
      pixel belongs to. */
  datatype Entry = Entry(cp: int, inCp: int)

  /** One row of the routing table: the old and new ids of a cell, the new
      ids of the cells draining into it and their old ids. */
  datatype Node = Node(oldId: int, newId: nat, upstream: seq<nat>, oldUpstream: seq<int>)

  /** A cell whose inlet lies on itself: the basin outlet (`diff == 0`). */
  predicate IsOutlet(e: Entry) {
    e.cp == e.inCp
  }

  /** Cell ids are positive and each cell appears once. */
  predicate WellFormed(entries: seq<Entry>) {
    (forall j :: 0 <= j < |entries| ==> entries[j].cp > 0)
    && (forall a, b :: 0 <= a < b < |entries| ==> entries[a].cp != entries[b].cp)
  }

  predicate Distinct(s: seq<nat>) {
    forall a, b :: 0 <= a < b < |s| ==> s[a] != s[b]
  }

  /** Cell `a` has its inlet on cell `b`. */
  predicate DrainsInto(entries: seq<Entry>, a: int, b: int) {
    exists j :: 0 <= j < |entries| && entries[j].cp == a && entries[j].inCp == b
  }

  /** The rows of `col` equal to `v`, in table order:
      `routing.index[routing["inCPid"] == v]`. */
  function Matches(col: seq<int>, v: int): (r: seq<nat>)
    ensures forall j: nat :: j in r <==> j < |col| && col[j] == v
    ensures forall t :: 0 <= t < |r| ==> r[t] < |col|
    ensures Increasing(r)
  {
    if |col| == 0 then []
    else
      var rest := Matches(col[..|col| - 1], v);
      assert forall t :: 0 <= t < |rest| ==> rest[t] < |col| - 1;
      rest + (if col[|col| - 1] == v then [|col| - 1] else [])
  }

  /** The first routing row holding cell `x` (`|entries|` when none does). */
  function RowOf(entries: seq<Entry>, x: int): (j: nat)
    ensures j <= |entries|
    ensures j < |entries| ==> entries[j].cp == x
    ensures forall k :: 0 <= k < j ==> entries[k].cp != x
  {
    if |entries| == 0 then 0
    else if entries[0].cp == x then 0
    else 1 + RowOf(entries[1..], x)
  }

  /** With distinct cells, the row of a row's cell is that row. */
  lemma RowOfCell(entries: seq<Entry>, j: nat)
    requires WellFormed(entries) && j < |entries|
    ensures RowOf(entries, entries[j].cp) == j
  {
    var k := RowOf(entries, entries[j].cp);
    assert k <= j;
  }

  /** The first row that drains into itself: `idx_outlet[0]`. */
  function FirstOutlet(entries: seq<Entry>): (r: Option<nat>)
    ensures r.None? <==> forall j :: 0 <= j < |entries| ==> !IsOutlet(entries[j])
    ensures r.Some? ==> r.value < |entries| && IsOutlet(entries[r.value])
    ensures r.Some? ==> forall j :: 0 <= j < r.value ==> !IsOutlet(entries[j])
  {
    if |entries| == 0 then None
    else if IsOutlet(entries[0]) then Some(0)
    else
      match FirstOutlet(entries[1..])
      case None => None
      case Some(j) => Some(j + 1)
  }

  /** The walk's state: the current `inCPid` column, the table so far and,
      for each table row, the routing row it came from. */
  datatype State = State(col: seq<int>, nodes: seq<Node>, rows: seq<nat>)

  /** The state before the walk: every outlet row tracked, the first one
      placed as new id 1. */
  function Start(entries: seq<Entry>, root: nat): (s: State)
    requires root < |entries|
    ensures |s.col| == |entries| && s.nodes == [Node(entries[root].cp, 1, [], [])] && s.rows == [root]
    ensures forall j :: 0 <= j < |entries| ==>
              s.col[j] == if IsOutlet(entries[j]) then Tracked else entries[j].inCp
  {
    State(seq(|entries|, j requires 0 <= j < |entries| => if IsOutlet(entries[j]) then Tracked else entries[j].inCp),
          [Node(entries[root].cp, 1, [], [])], [root])
  }

  /** Row `i` of the table: every untracked row draining into it gets the
      next new ids, is appended to the table and is tracked. */
  function Step(entries: seq<Entry>, s: State, i: nat): (s': State)
    requires |s.col| == |entries| && i < |s.nodes|
    ensures var ms := Matches(s.col, s.nodes[i].oldId);
            && |s'.col| == |entries|
            && (forall j :: 0 <= j < |entries| ==>
                  s'.col[j] == if s.col[j] == s.nodes[i].oldId then Tracked else s.col[j])
            && s'.rows == s.rows + ms
            && |s'.nodes| == |s.nodes| + |ms|
            && (forall k :: 0 <= k < |s.nodes| && k != i ==> s'.nodes[k] == s.nodes[k])
            && s'.nodes[i].oldId == s.nodes[i].oldId && s'.nodes[i].newId == s.nodes[i].newId
            && |s'.nodes[i].upstream| == |ms| && |s'.nodes[i].oldUpstream| == |ms|
            && (forall t :: 0 <= t < |ms| ==>
                  s'.nodes[i].upstream[t] == |s.nodes| + 1 + t
                  && s'.nodes[i].oldUpstream[t] == entries[ms[t]].cp
                  && s'.nodes[|s.nodes| + t] == Node(entries[ms[t]].cp, |s.nodes| + 1 + t, [], []))
  {
    var v := s.nodes[i].oldId;
    var ms := Matches(s.col, v);
    var c := |s.nodes|;
    var up := seq(|ms|, t requires 0 <= t < |ms| => c + 1 + t);
    var oldUp := seq(|ms|, t requires 0 <= t < |ms| => entries[ms[t]].cp);
    var added := seq(|ms|, t requires 0 <= t < |ms| => Node(entries[ms[t]].cp, c + 1 + t, [], []));
    State(seq(|s.col|, j requires 0 <= j < |s.col| => if s.col[j] == v then Tracked else s.col[j]),
          s.nodes[i := s.nodes[i].(upstream := up, oldUpstream := oldUp)] + added,
          s.rows + ms)
  }

  // ----- the walk's invariant, one concern per predicate -----

  predicate Shape(entries: seq<Entry>, s: State, i: nat) {
    |s.col| == |entries| && |s.rows| == |s.nodes| && 1 <= |s.nodes| && i <= |s.nodes|
  }

  /** Table row `k` holds the cell of routing row `rows[k]`, as new id
      `k + 1`, and that routing row is tracked. */
  predicate RowsAgree(entries: seq<Entry>, s: State)
    requires |s.col| == |entries| && |s.rows| == |s.nodes|
  {
    (forall k :: 0 <= k < |s.rows| ==>
       s.rows[k] < |entries| && s.col[s.rows[k]] == Tracked
       && s.nodes[k].oldId == entries[s.rows[k]].cp && s.nodes[k].newId == k + 1)
    && Distinct(s.rows)
  }

  /** An untracked row still holds its inlet cell; a tracked one is an
      outlet or is in the table. */
  predicate ColumnAgrees(entries: seq<Entry>, s: State)
    requires |s.col| == |entries|
  {
    forall j :: 0 <= j < |entries| ==>
      (s.col[j] != Tracked ==> s.col[j] == entries[j].inCp)
      && (s.col[j] == Tracked && entries[j].inCp != Tracked ==> IsOutlet(entries[j]) || j in s.rows)
  }

  /** Upstream entry `t` of table row `p` is a later row whose cell drains
      into `p`'s cell, and its old id is that row's cell. */
  predicate ChildAt(entries: seq<Entry>, s: State, p: nat, t: nat)
    requires p < |s.nodes| && |s.nodes[p].oldUpstream| == |s.nodes[p].upstream| && t < |s.nodes[p].upstream|
  {
    var n := s.nodes[p];
    p + 1 < n.upstream[t] <= |s.nodes| && n.upstream[t] <= |s.rows| && s.rows[n.upstream[t] - 1] < |entries|
    && entries[s.rows[n.upstream[t] - 1]].inCp == n.oldId
    && n.oldUpstream[t] == s.nodes[n.upstream[t] - 1].oldId
  }

  /** The upstream ids of table row `p` are later rows, in order, whose
      cells drain into `p`'s cell. */
  predicate Children(entries: seq<Entry>, s: State, p: nat)
    requires p < |s.nodes|
  {
    var n := s.nodes[p];
    && |n.oldUpstream| == |n.upstream|
    && Increasing(n.upstream)
    && forall t :: 0 <= t < |n.upstream| ==> ChildAt(entries, s, p, t)
  }

  /** Breadth-first order: the upstream ids of an earlier row are smaller
      than those of a later row. */
  predicate Ordered(nodes: seq<Node>) {
    forall p, q, a, b :: 0 <= p < q < |nodes| && 0 <= a < |nodes[p].upstream| && 0 <= b < |nodes[q].upstream| ==>
      nodes[p].upstream[a] < nodes[q].upstream[b]
  }

  /** Every row but the first is upstream of one of the first `i` rows. */
  predicate HasParent(nodes: seq<Node>, i: nat) {
    forall k :: 1 <= k < |nodes| ==> exists p :: 0 <= p < i && p < |nodes| && nodes[k].newId in nodes[p].upstream
  }

  /** Only the first `i` rows have been expanded; the upstream lists of
      earlier rows hold smaller ids than those of later rows; every row but
      the first is upstream of an expanded row. */
  predicate UpstreamAgrees(entries: seq<Entry>, s: State, i: nat)
    requires Shape(entries, s, i)
  {
    (forall p :: i <= p < |s.nodes| ==> s.nodes[p].upstream == [] && s.nodes[p].oldUpstream == [])
    && (forall p :: 0 <= p < |s.nodes| ==> Children(entries, s, p))
    && Ordered(s.nodes)
    && HasParent(s.nodes, i)
  }

  /** Every non-outlet row draining into an expanded row is in the table. */
  predicate Closed(entries: seq<Entry>, s: State, i: nat)
    requires Shape(entries, s, i)
  {
    forall p, j :: 0 <= p < i && 0 <= j < |entries| && entries[j].inCp == s.nodes[p].oldId && !IsOutlet(entries[j]) ==>
      j in s.rows
  }

  predicate Inv(entries: seq<Entry>, root: nat, s: State, i: nat) {
    && Shape(entries, s, i)
    && RowsAgree(entries, s)
    && ColumnAgrees(entries, s)
    && UpstreamAgrees(entries, s, i)
    && Closed(entries, s, i)
    && s.rows[0] == root
  }

  /** `s` without the value `x`. */
  function Without(s: seq<nat>, x: nat): (r: seq<nat>)
    ensures forall k :: 0 <= k < |r| ==> r[k] in s && r[k] != x
    ensures x !in s ==> |r| == |s|
    ensures Distinct(s) ==> Distinct(r) && |r| >= |s| - 1
  {
    if |s| == 0 then []
    else if s[0] == x then Without(s[1..], x)
    else
      var rest := Without(s[1..], x);
      assert Distinct(s) ==> s[0] !in rest;
      [s[0]] + rest
  }

  /** Distinct row positions of a table with `n` rows number at most `n`. */
  lemma {:induction false} DistinctBounded(rows: seq<nat>, n: nat)
    requires forall y :: y in rows ==> y < n
    requires Distinct(rows)
    ensures |rows| <= n
    decreases n
  {
    if |rows| > 0 {
      assert rows[0] in rows;
      var rest := Without(rows, n - 1);
      forall y | y in rest
        ensures y < n - 1
      {
        var k :| 0 <= k < |rest| && rest[k] == y;
      }
      DistinctBounded(rest, n - 1);
    }
  }

  lemma InvBounded(entries: seq<Entry>, root: nat, s: State, i: nat)
    requires Inv(entries, root, s, i)
    ensures |s.nodes| <= |entries|
  {
    forall y | y in s.rows
      ensures y < |entries|
    {
      var k :| 0 <= k < |s.rows| && s.rows[k] == y;
    }
    DistinctBounded(s.rows, |entries|);
  }

  lemma StartInv(entries: seq<Entry>, root: nat)
    requires WellFormed(entries) && FirstOutlet(entries) == Some(root)
    ensures Inv(entries, root, Start(entries, root), 0)
  {
    var s := Start(entries, root);
    assert s.col[root] == Tracked;
    assert Children(entries, s, 0);
  }

  lemma StepInv(entries: seq<Entry>, root: nat, s: State, i: nat)
    requires WellFormed(entries)
    requires Inv(entries, root, s, i) && i < |s.nodes|
    ensures Inv(entries, root, Step(entries, s, i), i + 1)
  {
    var s' := Step(entries, s, i);
    StepRows(entries, s, i);
    StepColumn(entries, s, i);
    StepUpstream(entries, s, i);
    StepClosed(entries, s, i);
  }

  lemma StepRows(entries: seq<Entry>, s: State, i: nat)
    requires WellFormed(entries)
    requires Shape(entries, s, i) && RowsAgree(entries, s) && i < |s.nodes|
    ensures Shape(entries, Step(entries, s, i), i + 1) && RowsAgree(entries, Step(entries, s, i))
  {
    var s' := Step(entries, s, i);
    var v := s.nodes[i].oldId;
    var ms := Matches(s.col, v);
    assert v > 0;
    forall k | 0 <= k < |s'.rows|
      ensures s'.rows[k] < |entries| && s'.col[s'.rows[k]] == Tracked
      ensures s'.nodes[k].oldId == entries[s'.rows[k]].cp && s'.nodes[k].newId == k + 1
    {
      if k >= |s.rows| {
        assert s'.rows[k] == ms[k - |s.rows|];
      }
    }
    forall a, b | 0 <= a < b < |s'.rows|
      ensures s'.rows[a] != s'.rows[b]
    {
      if a < |s.rows| && b >= |s.rows| {
        assert s.col[s.rows[a]] == Tracked;
        assert s'.rows[b] in ms;
      }
    }
  }

  lemma StepColumn(entries: seq<Entry>, s: State, i: nat)
    requires WellFormed(entries)
    requires Shape(entries, s, i) && RowsAgree(entries, s) && ColumnAgrees(entries, s) && i < |s.nodes|
    ensures ColumnAgrees(entries, Step(entries, s, i))
  {
    var s' := Step(entries, s, i);
    var ms := Matches(s.col, s.nodes[i].oldId);
    forall j | 0 <= j < |entries| && s'.col[j] == Tracked && entries[j].inCp != Tracked && !IsOutlet(entries[j])
      ensures j in s'.rows
    {
      if s.col[j] != Tracked {
        assert j in ms;
      }
    }
  }

  lemma StepUpstream(entries: seq<Entry>, s: State, i: nat)
    requires WellFormed(entries)
    requires Shape(entries, s, i) && RowsAgree(entries, s) && UpstreamAgrees(entries, s, i) && i < |s.nodes|
    requires ColumnAgrees(entries, s)
    ensures Shape(entries, Step(entries, s, i), i + 1) && RowsAgree(entries, Step(entries, s, i))
    ensures UpstreamAgrees(entries, Step(entries, s, i), i + 1)
  {
    StepRows(entries, s, i);
    StepTail(entries, s, i);
    StepAllChildren(entries, s, i);
    StepOrder(entries, s, i);
    StepParent(entries, s, i);
  }

  lemma StepTail(entries: seq<Entry>, s: State, i: nat)
    requires Shape(entries, s, i) && UpstreamAgrees(entries, s, i) && i < |s.nodes|
    ensures forall p :: i + 1 <= p < |Step(entries, s, i).nodes| ==>
              Step(entries, s, i).nodes[p].upstream == [] && Step(entries, s, i).nodes[p].oldUpstream == []
  {
    var s' := Step(entries, s, i);
    var c := |s.nodes|;
    forall p | i + 1 <= p < |s'.nodes|
      ensures s'.nodes[p].upstream == [] && s'.nodes[p].oldUpstream == []
    {
      if p < c {
        assert s'.nodes[p] == s.nodes[p];
      }
    }
  }

  lemma StepAllChildren(entries: seq<Entry>, s: State, i: nat)
    requires WellFormed(entries)
    requires Shape(entries, s, i) && RowsAgree(entries, s) && UpstreamAgrees(entries, s, i) && i < |s.nodes|
    requires ColumnAgrees(entries, s)
    ensures Shape(entries, Step(entries, s, i), i + 1) && RowsAgree(entries, Step(entries, s, i))
    ensures forall p :: 0 <= p < |Step(entries, s, i).nodes| ==> Children(entries, Step(entries, s, i), p)
  {
    StepRows(entries, s, i);
    var s' := Step(entries, s, i);
    var c := |s.nodes|;
    forall p | 0 <= p < |s'.nodes|
      ensures Children(entries, s', p)
    {
      if p == i {
        StepChildren(entries, s, i);
      } else if p < c {
        StepKeepsChildren(entries, s, i, p);
      } else {
        assert s'.nodes[p].upstream == [];
      }
    }
  }

  lemma StepKeepsChildren(entries: seq<Entry>, s: State, i: nat, p: nat)
    requires WellFormed(entries)
    requires Shape(entries, s, i) && RowsAgree(entries, s) && i < |s.nodes|
    requires p < |s.nodes| && p != i && Children(entries, s, p)
    ensures Shape(entries, Step(entries, s, i), i + 1) && RowsAgree(entries, Step(entries, s, i))
    ensures Children(entries, Step(entries, s, i), p)
  {
    StepRows(entries, s, i);
    var s' := Step(entries, s, i);
    assert s'.nodes[p] == s.nodes[p];
    var n := s.nodes[p];
    forall t | 0 <= t < |n.upstream|
      ensures ChildAt(entries, s', p, t)
    {
      assert ChildAt(entries, s, p, t);
      assert s'.rows[n.upstream[t] - 1] == s.rows[n.upstream[t] - 1];
      assert s'.nodes[n.upstream[t] - 1].oldId == s.nodes[n.upstream[t] - 1].oldId;
    }
  }

  lemma StepParent(entries: seq<Entry>, s: State, i: nat)
    requires Shape(entries, s, i) && HasParent(s.nodes, i) && i < |s.nodes|
    ensures HasParent(Step(entries, s, i).nodes, i + 1)
  {
    var s' := Step(entries, s, i);
    var c := |s.nodes|;
    forall k | 1 <= k < |s'.nodes|
      ensures exists p :: 0 <= p < i + 1 && p < |s'.nodes| && s'.nodes[k].newId in s'.nodes[p].upstream
    {
      if k < c {
        var p :| 0 <= p < i && p < c && s.nodes[k].newId in s.nodes[p].upstream;
        assert s'.nodes[p] == s.nodes[p];
        assert s'.nodes[k].newId == s.nodes[k].newId;
      } else {
        assert s'.nodes[i].upstream[k - c] == s'.nodes[k].newId;
      }
    }
  }

  lemma StepChildren(entries: seq<Entry>, s: State, i: nat)
    requires WellFormed(entries)
    requires Shape(entries, s, i) && RowsAgree(entries, s) && i < |s.nodes|
    requires ColumnAgrees(entries, s)
    ensures Children(entries, Step(entries, s, i), i)
  {
    StepUpstreamShape(entries, s, i);
    StepChildrenDrain(entries, s, i);
  }

  /** Expanding row `i` gives it increasing upstream ids, one old id each. */
  lemma StepUpstreamShape(entries: seq<Entry>, s: State, i: nat)
    requires |s.col| == |entries| && i < |s.nodes|
    ensures var n := Step(entries, s, i).nodes[i];
            |n.oldUpstream| == |n.upstream| && Increasing(n.upstream)
  {
  }

  lemma StepChildrenDrain(entries: seq<Entry>, s: State, i: nat)
    requires WellFormed(entries)
    requires Shape(entries, s, i) && RowsAgree(entries, s) && i < |s.nodes|
    requires ColumnAgrees(entries, s)
    ensures var s' := Step(entries, s, i);
            |s'.nodes[i].oldUpstream| == |s'.nodes[i].upstream| &&
            forall t :: 0 <= t < |s'.nodes[i].upstream| ==> ChildAt(entries, s', i, t)
  {
    var s' := Step(entries, s, i);
    StepUpstreamShape(entries, s, i);
    forall t | 0 <= t < |s'.nodes[i].upstream|
      ensures ChildAt(entries, s', i, t)
    {
      StepChild(entries, s, i, t);
    }
  }

  /** The `t`-th row added by expanding row `i`. */
  lemma StepChild(entries: seq<Entry>, s: State, i: nat, t: nat)
    requires WellFormed(entries)
    requires Shape(entries, s, i) && RowsAgree(entries, s) && i < |s.nodes|
    requires ColumnAgrees(entries, s)
    requires t < |Step(entries, s, i).nodes[i].upstream|
    ensures |Step(entries, s, i).nodes[i].oldUpstream| == |Step(entries, s, i).nodes[i].upstream|
    ensures ChildAt(entries, Step(entries, s, i), i, t)
  {
    var s' := Step(entries, s, i);
    var v := s.nodes[i].oldId;
    var ms := Matches(s.col, v);
    var c := |s.nodes|;
    assert s'.nodes[i].upstream[t] - 1 == c + t;
    assert s'.rows[c + t] == ms[t];
    assert ms[t] in ms;
    assert s.col[ms[t]] == v;
    assert v != Tracked by {
      assert entries[s.rows[i]].cp > 0;
    }
  }

  lemma StepOrder(entries: seq<Entry>, s: State, i: nat)
    requires Shape(entries, s, i) && UpstreamAgrees(entries, s, i) && i < |s.nodes|
    ensures Ordered(Step(entries, s, i).nodes)
  {
    var s' := Step(entries, s, i);
    var c := |s.nodes|;
    assert forall q :: i < q < |s'.nodes| ==> s'.nodes[q].upstream == [] by {
      forall q | i < q < |s'.nodes|
        ensures s'.nodes[q].upstream == []
      {
        if q < c {
          assert s'.nodes[q] == s.nodes[q];
        }
      }
    }
    forall p, q, a, b | 0 <= p < q <= i && 0 <= a < |s'.nodes[p].upstream| && 0 <= b < |s'.nodes[q].upstream|
      ensures s'.nodes[p].upstream[a] < s'.nodes[q].upstream[b]
    {
      assert s'.nodes[p] == s.nodes[p];
      if q == i {
        assert Children(entries, s, p);
        assert ChildAt(entries, s, p, a);
      } else {
        assert s'.nodes[q] == s.nodes[q];
      }
    }
  }

  lemma StepClosed(entries: seq<Entry>, s: State, i: nat)
    requires WellFormed(entries)
    requires Shape(entries, s, i) && RowsAgree(entries, s) && ColumnAgrees(entries, s) && Closed(entries, s, i)
    requires i < |s.nodes|
    ensures Shape(entries, Step(entries, s, i), i + 1) && Closed(entries, Step(entries, s, i), i + 1)
  {
    StepRows(entries, s, i);
    var s' := Step(entries, s, i);
    var v := s.nodes[i].oldId;
    var ms := Matches(s.col, v);
    forall p, j | 0 <= p < i + 1 && 0 <= j < |entries| && entries[j].inCp == s'.nodes[p].oldId && !IsOutlet(entries[j])
      ensures j in s'.rows
    {
      if p < i {
        assert s'.nodes[p] == s.nodes[p];
        assert j in s.rows;
      } else if s.col[j] == v {
        assert j in ms;
      } else {
        assert s.col[j] == Tracked;
        assert j in s.rows;
      }
    }
  }

  // ----- what the finished table satisfies -----

  /** New ids count from 1 in table order. */
  predicate Numbered(nodes: seq<Node>) {
    forall k :: 0 <= k < |nodes| ==> nodes[k].newId == k + 1
  }

  /** `id` is the cell of some routing row. */
  predicate IsCell(entries: seq<Entry>, id: int) {
    exists j :: 0 <= j < |entries| && entries[j].cp == id
  }

  /** Every row is a cell of the input, each cell at most once. */
  predicate FromEntries(entries: seq<Entry>, nodes: seq<Node>) {
    (forall k :: 0 <= k < |nodes| ==> IsCell(entries, nodes[k].oldId))
    && (forall a, b :: 0 <= a < b < |nodes| ==> nodes[a].oldId != nodes[b].oldId)
  }

  /** The upstream ids of row `p` are later rows, in order, whose cells
      drain into it, and its old upstream ids are those rows' cells. */
  predicate RowDrains(entries: seq<Entry>, nodes: seq<Node>, p: nat)
    requires p < |nodes|
  {
    |nodes[p].oldUpstream| == |nodes[p].upstream| && Increasing(nodes[p].upstream)
    && forall t :: 0 <= t < |nodes[p].upstream| ==>
         p + 1 < nodes[p].upstream[t] <= |nodes|
         && DrainsInto(entries, nodes[nodes[p].upstream[t] - 1].oldId, nodes[p].oldId)
         && nodes[p].oldUpstream[t] == nodes[nodes[p].upstream[t] - 1].oldId
  }

  /** The cells draining into one row are listed, and hence numbered, in
      the order of their routing rows, as `routing.index[...]` lists them. */
  predicate SiblingOrder(entries: seq<Entry>, nodes: seq<Node>) {
    forall p, a, b :: 0 <= p < |nodes| && 0 <= a < b < |nodes[p].oldUpstream| ==>
      RowOf(entries, nodes[p].oldUpstream[a]) < RowOf(entries, nodes[p].oldUpstream[b])
  }

  /** Expanding a row lists its new upstream cells in routing-row order
      and leaves every other row's list as it was. */
  lemma StepSiblings(entries: seq<Entry>, s: State, i: nat)
    requires WellFormed(entries) && |s.col| == |entries| && i < |s.nodes|
    requires SiblingOrder(entries, s.nodes)
    ensures SiblingOrder(entries, Step(entries, s, i).nodes)
  {
    var s' := Step(entries, s, i);
    var ms := Matches(s.col, s.nodes[i].oldId);
    var c := |s.nodes|;
    forall p, a, b | 0 <= p < |s'.nodes| && 0 <= a < b < |s'.nodes[p].oldUpstream|
      ensures RowOf(entries, s'.nodes[p].oldUpstream[a]) < RowOf(entries, s'.nodes[p].oldUpstream[b])
    {
      if p == i {
        RowOfCell(entries, ms[a]);
        RowOfCell(entries, ms[b]);
      } else if p < c {
        assert s'.nodes[p] == s.nodes[p];
      }
    }
  }

  predicate UpstreamDrain(entries: seq<Entry>, nodes: seq<Node>) {
    forall p :: 0 <= p < |nodes| ==> RowDrains(entries, nodes, p)
  }

  /** A cell that drains into a row of the table (and is not itself an
      outlet) is in the table. */
  predicate Complete(entries: seq<Entry>, nodes: seq<Node>) {
    forall p, j :: 0 <= p < |nodes| && 0 <= j < |entries| && entries[j].inCp == nodes[p].oldId && !IsOutlet(entries[j]) ==>
      exists k :: 0 <= k < |nodes| && nodes[k].oldId == entries[j].cp
  }

  /** `routing_table`'s walk. Without a cell draining into itself the
      source's `values[0]` raises; otherwise the table starts at the first
      such cell with new id 1, numbers cells in the order the walk meets
      them (the cells draining into one row in routing-row order), gives every other row exactly one downstream row, and holds
      every cell that drains into one of its rows. */
  method BuildRoutingTable(entries: seq<Entry>) returns (r: Result<seq<Node>>)
    requires WellFormed(entries)
    ensures r.Err? <==> forall j :: 0 <= j < |entries| ==> !IsOutlet(entries[j])
    ensures r.Ok? ==> 1 <= |r.value| <= |entries|
    ensures r.Ok? ==> r.value[0].oldId == entries[FirstOutlet(entries).value].cp
    ensures r.Ok? ==> Numbered(r.value) && FromEntries(entries, r.value)
    ensures r.Ok? ==> UpstreamDrain(entries, r.value)
    ensures r.Ok? ==> Ordered(r.value) && HasParent(r.value, |r.value|)
    ensures r.Ok? ==> Complete(entries, r.value)
    ensures r.Ok? ==> SiblingOrder(entries, r.value)
  {
    var first := FirstOutlet(entries);
    if first.None? {
      return Err(NoBasinOutlet);
    }
    var root := first.value;
    var s := Start(entries, root);
    StartInv(entries, root);
    var i := 0;
    InvBounded(entries, root, s, i);
    while i < |s.nodes|
      invariant Inv(entries, root, s, i)
      invariant |s.nodes| <= |entries|
      invariant SiblingOrder(entries, s.nodes)
      decreases |entries| - i
    {
      StepInv(entries, root, s, i);
      StepSiblings(entries, s, i);
      s := Step(entries, s, i);
      i := i + 1;
      InvBounded(entries, root, s, i);
    }
    ConcludeCells(entries, s);
    ConcludeDrain(entries, s);
    ConcludeComplete(entries, s);
    return Ok(s.nodes);
  }

  lemma ConcludeCells(entries: seq<Entry>, s: State)
    requires WellFormed(entries) && Shape(entries, s, 0) && RowsAgree(entries, s)
    ensures Numbered(s.nodes) && FromEntries(entries, s.nodes)
  {
    RowsAreCells(entries, s);
    RowsDistinct(entries, s);
  }

  /** Every table row holds the cell of a routing row. */
  lemma RowsAreCells(entries: seq<Entry>, s: State)
    requires Shape(entries, s, 0) && RowsAgree(entries, s)
    ensures forall k :: 0 <= k < |s.nodes| ==> IsCell(entries, s.nodes[k].oldId)
  {
    forall k | 0 <= k < |s.nodes|
      ensures IsCell(entries, s.nodes[k].oldId)
    {
      var w := s.rows[k];
      assert w < |entries| && entries[w].cp == s.nodes[k].oldId;
    }
  }

  /** Distinct table rows come from distinct routing rows, hence hold
      distinct cells. */
  lemma RowsDistinct(entries: seq<Entry>, s: State)
    requires WellFormed(entries) && Shape(entries, s, 0) && RowsAgree(entries, s)
    ensures forall a, b :: 0 <= a < b < |s.nodes| ==> s.nodes[a].oldId != s.nodes[b].oldId
  {
    forall a, b | 0 <= a < b < |s.nodes|
      ensures s.nodes[a].oldId != s.nodes[b].oldId
    {
      assert s.rows[a] != s.rows[b];
    }
  }

  lemma ConcludeDrain(entries: seq<Entry>, s: State)
    requires Shape(entries, s, 0) && RowsAgree(entries, s) && forall p :: 0 <= p < |s.nodes| ==> Children(entries, s, p)
    ensures UpstreamDrain(entries, s.nodes)
  {
    forall p | 0 <= p < |s.nodes|
      ensures RowDrains(entries, s.nodes, p)
    {
      assert Children(entries, s, p);
      var n := s.nodes[p];
      forall t | 0 <= t < |n.upstream|
        ensures p + 1 < n.upstream[t] <= |s.nodes|
        ensures DrainsInto(entries, s.nodes[n.upstream[t] - 1].oldId, n.oldId)
        ensures n.oldUpstream[t] == s.nodes[n.upstream[t] - 1].oldId
      {
        assert ChildAt(entries, s, p, t);
        var x := n.upstream[t];
        assert entries[s.rows[x - 1]].cp == s.nodes[x - 1].oldId;
      }
    }
  }

  lemma ConcludeComplete(entries: seq<Entry>, s: State)
    requires Shape(entries, s, |s.nodes|) && RowsAgree(entries, s) && Closed(entries, s, |s.nodes|)
    ensures Complete(entries, s.nodes)
  {
    forall p, j | 0 <= p < |s.nodes| && 0 <= j < |entries| && entries[j].inCp == s.nodes[p].oldId && !IsOutlet(entries[j])
      ensures exists k :: 0 <= k < |s.nodes| && s.nodes[k].oldId == entries[j].cp
    {
      assert j in s.rows;
      var k :| 0 <= k < |s.rows| && s.rows[k] == j;
      assert s.nodes[k].oldId == entries[j].cp;
    }
  }

  /** A row other than the outlet row is the cell of an entry draining
      into its parent row, so that entry's inlet is a cell id, never 0. */
  lemma InletOfUpstreamRow(entries: seq<Entry>, nodes: seq<Node>, k: nat, p: nat)
    requires WellFormed(entries) && k < |nodes| && p < |nodes|
    requires Numbered(nodes) && FromEntries(entries, nodes) && RowDrains(entries, nodes, p)
    requires nodes[k].newId in nodes[p].upstream
    ensures exists j :: 0 <= j < |entries| && entries[j].cp == nodes[k].oldId && entries[j].inCp != 0
  {
    var u := nodes[p].upstream;
    var t :| 0 <= t < |u| && u[t] == k + 1;
    assert DrainsInto(entries, nodes[u[t] - 1].oldId, nodes[p].oldId);
    assert IsCell(entries, nodes[p].oldId);
    var q :| 0 <= q < |entries| && entries[q].cp == nodes[p].oldId;
  }

  /** The outlet row is the outlet cell, whose inlet is itself. */
  lemma InletOfOutletRow(entries: seq<Entry>, nodes: seq<Node>, o: nat)
    requires o < |entries| && IsOutlet(entries[o]) && WellFormed(entries)
    requires 1 <= |nodes| && nodes[0].oldId == entries[o].cp
    ensures exists j :: 0 <= j < |entries| && entries[j].cp == nodes[0].oldId && entries[j].inCp != 0
  {
    assert entries[o].cp == nodes[0].oldId;
  }

  /** Every row of a finished table is a cell whose inlet lies on a
      cell: the outlet drains into itself and every other row into its
      downstream row. */
  lemma TableInletsNonZero(entries: seq<Entry>, nodes: seq<Node>, o: nat, k: nat)
    requires o < |entries| && IsOutlet(entries[o]) && WellFormed(entries)
    requires k < |nodes| && nodes[0].oldId == entries[o].cp
    requires Numbered(nodes) && FromEntries(entries, nodes) && UpstreamDrain(entries, nodes) && HasParent(nodes, |nodes|)
    ensures exists j :: 0 <= j < |entries| && entries[j].cp == nodes[k].oldId && entries[j].inCp != 0
  {
    if k == 0 {
      InletOfOutletRow(entries, nodes, o);
    } else {
      var p :| 0 <= p < |nodes| && nodes[k].newId in nodes[p].upstream;
      InletOfUpstreamRow(entries, nodes, k, p);
    }
  }

  /** The cells `routing_table` drops afterwards, those whose inlet lies
      on no cell (`inCPid == 0`), are never rows of the table. */
  lemma ZeroInletNotInTable(entries: seq<Entry>, nodes: seq<Node>, o: nat, j: nat, k: nat)
    requires o < |entries| && IsOutlet(entries[o]) && WellFormed(entries)
    requires k < |nodes| && nodes[0].oldId == entries[o].cp
    requires Numbered(nodes) && FromEntries(entries, nodes) && UpstreamDrain(entries, nodes) && HasParent(nodes, |nodes|)
    requires j < |entries| && entries[j].inCp == 0
    ensures nodes[k].oldId != entries[j].cp
  {
    TableInletsNonZero(entries, nodes, o, k);
    var i :| 0 <= i < |entries| && entries[i].cp == nodes[k].oldId && entries[i].inCp != 0;
    assert i != j;
  }
}

=== FILE: smallcp.dfy ===
/** General dissolve of undersized partial cells (`remove_smallCP`).

    Every decision reads the table as it was when the control element was
    entered (the row snapshot and the `KEEP` flags computed by
    `find_neighbors` are never refreshed); the writes go to the output table
    and a later write to the same row wins. Writes stay inside one control
    element, so visiting the rows in table order gives the same result as
    visiting them control element by control element. */
module SmallCells {
  import opened Common
  import opened Adjacency

  /** What one flagged row does to the output table. */
  datatype Action =
    | Skip                                   // row not considered
    | Drop                                   // isolated row: id 0, no accumulation
    | MergeFlagged(rows: seq<nat>, into: int)  // the flagged neighbours take id `into`
    | Redirect(into: int)                    // the row itself takes id `into`

  /** The rows the loop considers: in a listed control element, with a
      non-zero id, flagged for dissolving. */
  predicate Visited(cells: seq<Cell>, ces: set<int>, k: nat)
    requires k < |cells|
  {
    cells[k].ce in ces && cells[k].id != 0 && cells[k].dissolve
  }

  function Flagged(cells: seq<Cell>, touches: (nat, nat) -> bool, k: nat): (r: seq<nat>)
    requires k < |cells|
    ensures Rows(r, |cells|)
    ensures forall j :: j in r <==> j in Neighbours(cells, touches, k) && cells[j].dissolve
  {
    WithFlag(cells, Neighbours(cells, touches, k), true)
  }

  function Unflagged(cells: seq<Cell>, touches: (nat, nat) -> bool, k: nat): (r: seq<nat>)
    requires k < |cells|
    ensures Rows(r, |cells|)
    ensures forall j :: j in r <==> j in Neighbours(cells, touches, k) && !cells[j].dissolve
  {
    WithFlag(cells, Neighbours(cells, touches, k), false)
  }

  /** The decision for row `k`, taken on the snapshot `cells`. */
  function Decide(cells: seq<Cell>, touches: (nat, nat) -> bool, ces: set<int>, k: nat): (a: Action)
    requires k < |cells|
    ensures !Visited(cells, ces, k) ==> a == Skip
    // no neighbours: the row is dropped
    ensures Visited(cells, ces, k) && Neighbours(cells, touches, k) == [] ==> a == Drop
    // only flagged neighbours: they join the largest of them
    ensures Visited(cells, ces, k) && Flagged(cells, touches, k) != [] && Unflagged(cells, touches, k) == [] ==>
              && a.MergeFlagged?
              && a.rows == Flagged(cells, touches, k)
              && exists t: nat :: FirstLargestArea(cells, Flagged(cells, touches, k), t) &&
                   cells[Flagged(cells, touches, k)[t]].id == a.into
    // flagged and unflagged neighbours: the flagged ones join the smallest unflagged one
    ensures Visited(cells, ces, k) && Flagged(cells, touches, k) != [] && Unflagged(cells, touches, k) != [] ==>
              && a.MergeFlagged?
              && a.rows == Flagged(cells, touches, k)
              && exists t: nat :: FirstSmallestArea(cells, Unflagged(cells, touches, k), t) &&
                   cells[Unflagged(cells, touches, k)[t]].id == a.into
    // no flagged neighbour: the row joins its neighbour of largest accumulation
    ensures Visited(cells, ces, k) && Neighbours(cells, touches, k) != [] && Flagged(cells, touches, k) == [] ==>
              if exists j :: j in Neighbours(cells, touches, k) && cells[j].maxFac.Some? then
                && a.Redirect?
                && exists t: nat :: FirstLargestAccumulation(cells, Neighbours(cells, touches, k), t) &&
                     cells[Neighbours(cells, touches, k)[t]].id == a.into
              else a == Drop
  {
    if !Visited(cells, ces, k) then Skip
    else
      var nbrs := Neighbours(cells, touches, k);
      if nbrs == [] then Drop
      else
        var flagged := Flagged(cells, touches, k);
        var unflagged := Unflagged(cells, touches, k);
        if flagged != [] && unflagged == [] then
          MergeFlagged(flagged, cells[LargestArea(cells, flagged)].id)
        else if flagged != [] then
          MergeFlagged(flagged, cells[SmallestArea(cells, unflagged)].id)
        else
          match LargestAccumulation(cells, nbrs)
          case Some(j) => Redirect(cells[j].id)
          // pandas yields a NaN label here and the row vanishes at the next dissolve
          case None => Drop
  }

  /** The rows an action writes to. */
  predicate Mentions(a: Action, k: nat, j: nat) {
    match a
    case Skip => false
    case Drop => j == k
    case MergeFlagged(rows, _) => j in rows
    case Redirect(_) => j == k
  }

  /** The id an action writes. */
  function Target(a: Action): int {
    match a
    case MergeFlagged(_, into) => into
    case Redirect(into) => into
    case _ => 0
  }

  /** Performs the writes of `a` (taken for row `k`) on the output table. */
  function Apply(a: Action, k: nat, out: seq<Cell>): (r: seq<Cell>)
    requires k < |out|
    requires a.MergeFlagged? ==> Rows(a.rows, |out|)
    ensures |r| == |out|
    ensures forall j :: 0 <= j < |out| && !Mentions(a, k, j) ==> r[j] == out[j]
    ensures forall j :: 0 <= j < |out| && Mentions(a, k, j) ==>
              && r[j].id == Target(a) && !r[j].dissolve
              && r[j].ce == out[j].ce && r[j].area == out[j].area
              && (a.Drop? ==> r[j].maxFac.None?)
              && (!a.Drop? ==> r[j].maxFac == out[j].maxFac)
  {
    match a
    case Skip => out
    case Drop => out[k := out[k].(id := 0, maxFac := None, dissolve := false)]
    case Redirect(into) => out[k := out[k].(id := into, dissolve := false)]
    case MergeFlagged(rows, into) =>
      seq(|out|, j requires 0 <= j < |out| =>
        if j in rows then out[j].(id := into, dissolve := false) else out[j])
  }

  /** The output table after the decisions of rows `0..m-1`; it stays
      `Within` the input after every decision. */
  function Upto(cells: seq<Cell>, touches: (nat, nat) -> bool, ces: set<int>, m: nat): (r: seq<Cell>)
    requires m <= |cells|
    ensures |r| == |cells|
    ensures Within(cells, r)
    decreases m
  {
    if m == 0 then cells
    else
      var prev := Upto(cells, touches, ces, m - 1);
      DecisionWithin(cells, touches, ces, m - 1, prev);
      Apply(Decide(cells, touches, ces, m - 1), m - 1, prev)
  }

  /** The `remove_smallCP` pass, before the geometric dissolve by id: every
      row stays in its control element with its area and takes its own id,
      0, or the id of a row of its control element; once nothing is flagged
      the pass changes nothing. */
  function RemoveSmall(cells: seq<Cell>, touches: (nat, nat) -> bool, ces: set<int>): (r: seq<Cell>)
    ensures Within(cells, r)
    ensures (forall k :: 0 <= k < |cells| && cells[k].ce in ces ==> !cells[k].dissolve) ==> r == cells
  {
    if forall k :: 0 <= k < |cells| && cells[k].ce in ces ==> !cells[k].dissolve then
      ConvergedUnchanged(cells, touches, ces, |cells|);
      Upto(cells, touches, ces, |cells|)
    else Upto(cells, touches, ces, |cells|)
  }

  /** `id` is the id of some input row in control element `ce`. */
  predicate IdIn(cells: seq<Cell>, ce: int, id: int) {
    exists q :: 0 <= q < |cells| && cells[q].ce == ce && cells[q].id == id
  }

  /** `r` keeps every row of `cells` in its control element with its area,
      has raised no dissolve flag, and gives each row its own id, 0, or the
      id of an input row of the same control element. */
  predicate Within(cells: seq<Cell>, r: seq<Cell>) {
    && |r| == |cells|
    && forall j :: 0 <= j < |cells| ==>
         && r[j].ce == cells[j].ce && r[j].area == cells[j].area
         && (r[j].dissolve ==> cells[j].dissolve)
         && (r[j].id == cells[j].id || r[j].id == 0 || IdIn(cells, cells[j].ce, r[j].id))
  }

  lemma DecisionWithin(cells: seq<Cell>, touches: (nat, nat) -> bool, ces: set<int>, k: nat, out: seq<Cell>)
    requires k < |cells| && Within(cells, out)
    ensures Within(cells, Apply(Decide(cells, touches, ces, k), k, out))
  {
    var a := Decide(cells, touches, ces, k);
    var r := Apply(a, k, out);
    var nbrs := Neighbours(cells, touches, k);
    forall j | 0 <= j < |cells| && Mentions(a, k, j) && Target(a) != 0
      ensures IdIn(cells, cells[j].ce, r[j].id)
    {
      if a.MergeFlagged? {
        assert j in nbrs;
        var t :| t in nbrs && cells[t].id == a.into;
        assert cells[t].ce == cells[j].ce;
      } else {
        var t :| t in nbrs && cells[t].id == a.into;
        assert cells[t].ce == cells[j].ce;
      }
    }
  }

  /** A row that no decision from `m` on writes to keeps its state from
      step `m` to the end of the pass. */
  lemma {:induction false} UnmentionedUnchanged(cells: seq<Cell>, touches: (nat, nat) -> bool, ces: set<int>, m: nat, j: nat)
    requires m <= |cells| && j < |cells|
    requires forall k :: m <= k < |cells| ==> !Mentions(Decide(cells, touches, ces, k), k, j)
    ensures RemoveSmall(cells, touches, ces)[j] == Upto(cells, touches, ces, m)[j]
  {
    var n := |cells|;
    var s := n;
    while s > m
      invariant m <= s <= n
      invariant Upto(cells, touches, ces, s)[j] == Upto(cells, touches, ces, n)[j]
    {
      assert !Mentions(Decide(cells, touches, ces, s - 1), s - 1, j);
      s := s - 1;
    }
  }

  predicate Symmetric(touches: (nat, nat) -> bool, n: nat) {
    forall p, q :: 0 <= p < n && 0 <= q < n ==> touches(p, q) == touches(q, p)
  }

  /** A flagged row without neighbours ends the pass with id 0, whatever the
      other rows decide (with a symmetric "not disjoint" relation nobody
      lists it as a neighbour). */
  lemma IsolatedFlaggedDropped(cells: seq<Cell>, touches: (nat, nat) -> bool, ces: set<int>, k: nat)
    requires k < |cells| && Symmetric(touches, |cells|)
    requires Visited(cells, ces, k) && Neighbours(cells, touches, k) == []
    ensures RemoveSmall(cells, touches, ces)[k].id == 0
    ensures RemoveSmall(cells, touches, ces)[k].maxFac.None?
  {
    forall m | k < m < |cells|
      ensures !Mentions(Decide(cells, touches, ces, m), m, k)
    {
    }
    UnmentionedUnchanged(cells, touches, ces, k + 1, k);
  }

  /** When no row of a listed control element is flagged (the merging has
      converged) the pass changes nothing. */
  lemma {:induction false} ConvergedUnchanged(cells: seq<Cell>, touches: (nat, nat) -> bool, ces: set<int>, m: nat)
    requires m <= |cells|
    requires forall k :: 0 <= k < |cells| && cells[k].ce in ces ==> !cells[k].dissolve
    ensures Upto(cells, touches, ces, m) == cells
  {
    if m > 0 {
      ConvergedUnchanged(cells, touches, ces, m - 1);
    }
  }
}
